=== FILE: README.md ===
# WordEcho core in Dafny

WordEcho is a desktop app for learning vocabulary by reading. The learner
pastes a text. Every word of the text is registered in a vocabulary store.
The reader shows the text with known vocabulary clickable and coloured by
status. Clicking a word opens a side panel where a meaning can be saved or
the word marked as known. A review view then drills the words that are due.
A flag menu selects the language, and that choice is saved in the store.

This project models four pieces of that logic as pure Dafny functions over
immutable datatypes, and proves what each one promises.

- **Vocabulary store** (`Vocab`, `Extract`, `Commands`, `WordCommands`).
  - The store holds a map of texts, the `words` table as a sequence in row
    order, a set of text/word links, the saved country code, and the two
    AUTOINCREMENT counters.
  - `Vocab.Valid` is the invariant every command keeps: keys are unique and
    below their counter, forms are unique, and every link names a word row.
  - Every backend command is a transition of the store, returning a
    `Result` that carries the command's own error strings.
- **Reader** (`Chars`, `Strings`, `Segments`, `Reader`).
  - Rendering: the text loses its hyphens and is trimmed. It is then split
    into alternating runs of letters/digits and of separators. Each run is
    cleaned and looked up in the word snapshot.
  - The page session: the route, the loaded text, the snapshot, the
    selection and the meaning draft.
  - The save-meaning and mark-known handlers, composed with the store they
    call into.
- **Review** (`Review`): the three-field state machine of the review view,
  driven by the store's due queue.
- **Language selector** (`Flags`): the option, code and image tables, and
  the save/load round trip through the store.

The clock is an integer parameter counting seconds, with 86400 seconds to a
day. The scheduler's floating-point day count enters `review_word` as a
parameter and is then clamped to [1, 3650] as the source does.

The model follows the code in these places, where a reader might expect otherwise:

- Clicking a word keeps the meaning draft.
- The reader's lookup takes the *first* row with a form, as `Array.find`
  does.
- `update_word_meaning` sets the status to `seen` even for a known word.
- `if(!wordId)` treats a row id of 0 as missing.
- Navigating to a missing text keeps the previous text and words on screen,
  because the failed fetch is only logged.

## Model

| member | source | states |
|---|---|---|
| Strings.RemoveChars | src-tauri/src/lib.rs:325 | the result keeps only characters of the input, and none from the deleted class |
| Strings.RemoveCharsIdempotent | src-tauri/src/lib.rs:325 | deleting a class twice deletes nothing more |
| Strings.RemoveCharsAppend | src/components/ReadComponent.jsx:18 | deleting characters distributes over concatenation |
| Strings.Trim | src/components/ReadComponent.jsx:18 | the result is a contiguous piece of the input with only white space before and after it; it is empty iff the input is blank, and otherwise neither starts nor ends with white space; an input already trimmed is returned as it is |
| Strings.ByteOrderMarkTrimmed | src/components/ReadComponent.jsx:18 | the byte order mark U+FEFF is white space for `trim`: a string of it alone is blank and trims to nothing |
| Strings.TrimIdempotent | src/components/ReadComponent.jsx:27 | trimming a trimmed string changes nothing |
| Strings.SplitWhitespace | src-tauri/src/lib.rs:326 | every token is non-empty and free of white space, and the tokens concatenate to the input with its white space deleted |
| Strings.NextLineSplits | src-tauri/src/lib.rs:326 | the next-line control U+0085 separates tokens: "a\u{85}b" splits into "a" and "b" |
| Strings.SplitWhitespaceSeparates | src-tauri/src/lib.rs:326 | the input is its tokens with white space around them and a non-empty run of white space between any two |
| Strings.SplitWhitespaceUnique | src-tauri/src/lib.rs:326 | any tokens the input is so made of are exactly the ones returned, in order: no two tokens merge and none is dropped |
| Strings.SeparatorsOf | src-tauri/src/lib.rs:326 | builds, by induction on the input, the white-space runs that sit around and between the tokens of `split_whitespace` |
| Strings.SplitWhitespaceToken | src-tauri/src/lib.rs:326 | an input that starts with a non-space character yields its longest white-space-free prefix as the first token, followed by the tokens of the rest |
| Chars.RustWhiteSpaceIsRustSpace | src-tauri/src/lib.rs:326 | the set of characters `split_whitespace` splits on is exactly the Rust white-space predicate, U+0085 included |
| Extract.Matches | src-tauri/src/lib.rs:396-397 | the spans from a position on are exactly the bounded letter runs starting there, strictly increasing and disjoint |
| Extract.ExtractWords | src-tauri/src/lib.rs:396-397 | every word is a non-empty run of letters, and every bounded letter run of the content is among them |
| Extract.ExtractedAreBoundedRuns | src-tauri/src/lib.rs:396-397 | conversely, every extracted word is a bounded letter run of the content |
| Extract.LetterRunTouchingDigitNotRegistered | src-tauri/src/lib.rs:396 | a letter run that touches a digit is no match: "abc1" registers no word |
| Vocab.IndexOfId | src-tauri/src/lib.rs:826-830 | the first row with the id, or none exactly when no row has it |
| Vocab.IndexOfForm | src-tauri/src/lib.rs:400-404 | the first row with the form, or none exactly when no row has it |
| Vocab.WordByIdAt | src-tauri/src/lib.rs:826-830 | with unique ids, looking up a row's id finds that row |
| Vocab.WordByFormAt | src-tauri/src/lib.rs:400-404 | with unique forms, looking up a row's form finds that row |
| Vocab.WordByIdPrefix | src-tauri/src/lib.rs:409-418 | rows kept as a prefix of a grown table keep their lookups by id |
| Vocab.WordByFormPrefix | src-tauri/src/lib.rs:409-418 | rows kept as a prefix of a grown table keep their lookups by form |
| Vocab.EmptyStoreValid | src-tauri/src/lib.rs:972 | the empty store satisfies the invariant |
| Commands.FreshRow | src-tauri/src/lib.rs:411-418 | an inserted row has status `new`, no meaning and no review dates |
| Commands.LinkRow | src-tauri/src/lib.rs:422-428 | linking an existing row adds one link and keeps the invariant |
| Commands.InsertRow | src-tauri/src/lib.rs:409-428 | a fresh row is appended under the next id, linked, and the invariant holds |
| Commands.LinkRowRegisters | src-tauri/src/lib.rs:399-428 | reusing an existing row leaves the rows as they are and registers the form |
| Commands.InsertRowRegisters | src-tauri/src/lib.rs:399-428 | inserting registers the form with exactly one new row |
| Commands.RegisterWord | src-tauri/src/lib.rs:398-429 | the form ends up linked to the text; old rows are untouched; a row is added exactly when none had the form; the only link added is the one from the text to the row with the form; a form already linked leaves the store unchanged |
| Commands.RegisterWords | src-tauri/src/lib.rs:398-429 | every form is registered, the store only grows, every added row has one of the forms, and the links added are exactly those from the text to the rows with the forms |
| Commands.GrowsKeepsRegistered | src-tauri/src/lib.rs:422-428 | growing the store never undoes a registration of any text |
| Commands.RegisterWordsIdempotent | src-tauri/src/lib.rs:422-428 | registering the same forms twice equals registering them once |
| Commands.CreateText | src-tauri/src/lib.rs:379-433 | the text is stored under a new id, the preference stays and the invariant holds; every bounded letter run of its content is registered for it; added rows carry words of the content; the links added are exactly those from the new text to the rows of its words |
| Commands.UpdateText | src-tauri/src/lib.rs:463-530 | an existing text is overwritten and an absent id adds none; every bounded letter run of the new content is registered; added rows carry words of the content; earlier links are kept and the links added are exactly those from the id to the rows of its words |
| Commands.UpdateTextIdempotent | src-tauri/src/lib.rs:463-530 | saving the same text twice equals saving it once |
| Commands.UpdateTextSaved | src-tauri/src/lib.rs:463-530 | saving a text the store already holds with that title and content, whose words are all linked to it, changes nothing |
| Commands.FetchTokens | src-tauri/src/lib.rs:324-326 | each token is a non-empty, white-space-free string with no character of the punctuation class; the tokens concatenate to the content without punctuation and white space |
| Commands.NextLineSeparatesTokens | src-tauri/src/lib.rs:324-326 | the tokens of "a\u{85}b" are "a" and "b", as Rust's white space includes U+0085 |
| Commands.FetchTokensSplit | src-tauri/src/lib.rs:324-326 | the tokens are exactly the pieces white space separates in the content once its punctuation is deleted |
| Commands.Hit | src-tauri/src/lib.rs:329-343 | a token yields at most one row: the row its lookup finds |
| Commands.MatchTokens | src-tauri/src/lib.rs:328-344 | each row occurs once for every token equal to its form, if it is the row that form finds; no other row occurs |
| Commands.MatchTokensAppend | src-tauri/src/lib.rs:328-344 | the hits keep token order: the hits of two pieces of text, one after the other |
| Commands.GetTextWithWords | src-tauri/src/lib.rs:308-347 | "Text not found" exactly for a missing id; otherwise the stored text, plus the rows matched once per occurrence of each cleaned token |
| Commands.GetTextWithWordsRows | src-tauri/src/lib.rs:324-344 | given the pieces white space separates in the cleaned content, the rows are the lookups of those pieces in their order |
| Commands.GetTextWordCounts | src-tauri/src/lib.rs:435-461 | the three counts never exceed the text's links; they sum to them when every linked row has one of the three statuses; a text without links counts zero |
| WordCommands.CountsAreSizes | src-tauri/src/lib.rs:435-461 | each count is the number of the text's links whose row has that status: new, seen and known in that order |
| Commands.DeleteText | src-tauri/src/lib.rs:532-572 | exactly that text and its links go; other texts, all word rows and the preference stay; the invariant holds |
| Commands.DeleteTextForgets | src-tauri/src/lib.rs:532-572 | afterwards the text reads "Text not found" and counts nothing, and every other text reads as before |
| WordCommands.SetRow | src-tauri/src/lib.rs:607-612 | overwriting one row by index changes only that row and keeps the invariant |
| WordCommands.OnlyRowChangesLookup | src-tauri/src/lib.rs:580-584 | after a single-row update, every other id is found as before |
| WordCommands.UpdateWordMeaning | src-tauri/src/lib.rs:598-625 | "Word ID not found" exactly for a missing id; otherwise that row gets the meaning, status `seen` and next review now, and no other row changes |
| WordCommands.SavedMeaningIsDue | src-tauri/src/lib.rs:607-612 | after saving a meaning the review queue at the same time is not empty |
| WordCommands.MarkWordAsKnown | src-tauri/src/lib.rs:574-596 | "Word ID not found" exactly for a missing id; otherwise that row becomes `known` with no next review, its meaning and last review kept, and no other row changes |
| WordCommands.MarkWordAsKnownIdempotent | src-tauri/src/lib.rs:574-596 | marking known twice equals marking once |
| WordCommands.KnownNeverDrawn | src-tauri/src/lib.rs:627-656 | a word marked known is never drawn for review, at any time |
| WordCommands.EarliestDue | src-tauri/src/lib.rs:633-647 | among the first n rows: a due row whose next review is no later than any other due row's; none exactly when nothing there is due |
| WordCommands.GetRandomWord | src-tauri/src/lib.rs:627-656 | a due row of the store with the earliest next review; "No words are due for review" exactly when no row is due |
| WordCommands.ParseRating | src-tauri/src/lib.rs:862-864 | accepts exactly the four names Again, Hard, Good and Easy, and names the rating it parsed |
| WordCommands.RatingRoundTrip | src-tauri/src/lib.rs:862-864 | parsing a rating's name gives that rating back |
| WordCommands.Clamp | src-tauri/src/lib.rs:797 | the result lies in the bounds, equals the input inside them and the nearer bound outside |
| WordCommands.ReviewWord | src-tauri/src/lib.rs:819-911 | "Word not found" for a missing id, then "Invalid rating" for any other rating string, otherwise success; success keeps status, form and meaning, sets the last review to now and the next to now plus the clamped number of whole days; no other row changes |
| WordCommands.ReviewedNotDueBeforeNextDay | src-tauri/src/lib.rs:884-908 | a reviewed word is not drawn again before a day has passed |
| WordCommands.Without | src-tauri/src/lib.rs:948 | deleting one row keeps the others in order |
| WordCommands.RemoveRowUnique | src-tauri/src/lib.rs:948 | deleting a row keeps ids and forms unique, and its id is found no more |
| WordCommands.RemoveRowAbsent | src-tauri/src/lib.rs:948 | deleting a row does not make an unknown id appear |
| WordCommands.RemoveRowLookup | src-tauri/src/lib.rs:948 | deleting a row leaves the lookup of every other id unchanged |
| WordCommands.RemoveRowValid | src-tauri/src/lib.rs:938-954 | deleting a row together with its links keeps the invariant |
| WordCommands.DeleteWord | src-tauri/src/lib.rs:924-969 | "Word ID not found" exactly for a missing id; otherwise the row and exactly its links go, every other id reads as before, and texts and preference stay |
| WordCommands.OtherStatusesKept | src-tauri/src/lib.rs:574-625 | a single-row update leaves the status of every other id as it was |
| WordCommands.RecountAfterChange | src-tauri/src/lib.rs:435-461 | when one linked row changes status from a to b, the text's a links lose one, its b links gain one, and every other status keeps its number |
| WordCommands.RecountedCounts | src-tauri/src/lib.rs:435-461 | the three counts after one linked row moves between two of the three statuses: the old status's count drops by one, the new one's rises by one, the third is unchanged |
| WordCommands.MarkKnownStatuses | src-tauri/src/lib.rs:574-596 | `mark_word_as_known` keeps the links, makes that row `known` and changes no other status |
| WordCommands.SaveMeaningStatuses | src-tauri/src/lib.rs:598-625 | `update_word_meaning` keeps the links, makes that row `seen` and changes no other status |
| WordCommands.MarkKnownRecounts | src-tauri/src/lib.rs:435-461 | after marking known a `new` row the text links, the text has one fewer new word, one more known word and as many seen words |
| WordCommands.SaveMeaningRecounts | src-tauri/src/lib.rs:435-461 | after saving a meaning on a `new` row the text links, the text has one fewer new word, one more seen word and as many known words |
| WordCommands.SaveSelectedCountryCode | src-tauri/src/lib.rs:701-721 | reading the preference back gives the saved code; texts, words, links and both id counters stay |
| WordCommands.GetSelectedCountryCode | src-tauri/src/lib.rs:805-817 | the saved code, and none in a store where nothing was saved |
| Segments.RunLength | src/components/ReadComponent.jsx:19 | the longest prefix of one class: letters/digits or separators |
| Segments.SplitSegments | src/components/ReadComponent.jsx:19 | the pieces alternate between runs of letters/digits and non-empty runs of separators, and concatenate back to the input |
| Segments.PiecesUniform | src/components/ReadComponent.jsx:19 | every piece is all letters/digits, or a non-empty run of separators |
| Segments.LeadingRunsAgree | src/components/ReadComponent.jsx:19 | two alternating decompositions of one string with at least two runs each share the first two runs, and their tails again decompose one string |
| Segments.AlternatingUnique | src/components/ReadComponent.jsx:19 | two alternating decompositions of the same string are equal |
| Segments.SplitUnique | src/components/ReadComponent.jsx:19 | splitting the concatenation of an alternating sequence gives that sequence back |
| Segments.Prepare | src/components/ReadComponent.jsx:18 | the prepared text has no hyphen, neither starts nor ends with white space, and is a contiguous piece of the de-hyphenated text with only white space around it |
| Reader.CleanSegment | src/components/ReadComponent.jsx:27 | the cleaned segment holds no stripped character, and only characters of the segment |
| Reader.CleanSegmentIdempotent | src/components/ReadComponent.jsx:27 | cleaning twice equals cleaning once |
| Reader.CleanKeepsWordRun | src/components/ReadComponent.jsx:27 | with the intended class, a run of letters and digits cleans to itself |
| Reader.CleanSegmentAsWritten | src/components/ReadComponent.jsx:27 | the source's cleaning: no character of the class as spelled, only characters of the segment |
| Reader.AsWrittenMangles | src/components/ReadComponent.jsx:27 | the class as spelled changes any segment holding U+00E2 or U+0153 |
| Reader.ClassifyAsWritten | src/components/ReadComponent.jsx:24-47 | the source's classification of a segment; the piece keeps the segment |
| Reader.Classify | src/components/ReadComponent.jsx:24-47 | the intended classification of a segment; the piece keeps the segment |
| Reader.WordRunClickable | src/components/ReadComponent.jsx:27-43 | a run of letters and digits is clickable iff some row has it as its form; then it selects that form, coloured by the first such row's status |
| Reader.SeparatorNotClickable | src/components/ReadComponent.jsx:24-34 | against store-shaped rows, a run of separators is never clickable |
| Reader.Render | src/components/ReadComponent.jsx:17-54 | the pieces are the split of the prepared text, in order and concatenating back to it; each piece is its segment classified |
| Reader.RenderAsWritten | src/components/ReadComponent.jsx:17-54 | the same rendering with the class as the source spells it |
| Reader.ClassifyEachAsWritten | src/components/ReadComponent.jsx:17-54 | classifying each segment with the source's class gives, at each position, that segment classified as written |
| Reader.RenderedPiece | src/components/ReadComponent.jsx:17-54 | against store-shaped rows, a rendered piece is clickable iff it is a non-empty run of letters and digits that some row has as its form |
| Reader.EmptyStoreShaped | src-tauri/src/lib.rs:379-433 | the fresh store has no form that is not a non-empty letter run |
| Reader.GrownRowsShaped | src-tauri/src/lib.rs:379-433 | kept rows and added rows whose forms are extracted words keep every form a non-empty letter run |
| Reader.SavingTextKeepsShape | src-tauri/src/lib.rs:379-530 | `create_text` and `update_text` keep every form of the store a non-empty letter run |
| Reader.RowUpdateKeepsShape | src-tauri/src/lib.rs:574-625 | a single-row update keeps every form |
| Reader.WordUpdatesKeepShape | src-tauri/src/lib.rs:574-625 | `update_word_meaning`, `mark_word_as_known` and `review_word` keep every form a non-empty letter run |
| Reader.WithoutKeepsShape | src-tauri/src/lib.rs:948 | removing one row keeps the other forms |
| Reader.RemovalsKeepShape | src-tauri/src/lib.rs:924-969 | `delete_word`, `delete_text` and `save_selected_country_code` keep every form a non-empty letter run |
| Reader.StoreRowsShaped | src-tauri/src/lib.rs:330-342 | rows each of which the store finds for its form have store-shaped forms |
| Reader.SnapshotShaped | src-tauri/src/lib.rs:308-347 | the rows `get_text_with_words` returns from a store whose forms are letter runs have letter-run forms |
| Reader.SaveMeaningKeepsShape | src/components/ReadComponent.jsx:162-187 | saving a meaning keeps both the snapshot and the store store-shaped |
| Reader.ReaderKeepsShape | src/pages/Read.jsx:15-39 | loading, saving and marking known keep the snapshot and the store store-shaped, so the rendering lemmas that assume it apply to every snapshot the reader shows |
| Reader.SingleWordText | src/components/ReadComponent.jsx:18-19 | a text that is one run of letters and digits is prepared and split into just itself |
| Reader.AsWrittenMissesAccentedWord | src/components/ReadComponent.jsx:27 | with the class as written, "âge" renders plain although the snapshot holds that exact form; with the intended class it is clickable |
| Reader.FetchData | src/pages/Read.jsx:15-28 | a stored route text sets the text and the snapshot from one fetch; a missing one changes nothing |
| Reader.OpenShowsText | src/pages/Read.jsx:42-48 | after opening, the spinner shows exactly when the route's text is missing |
| Reader.Navigate | src/pages/Read.jsx:15-28 | a new route id re-runs the load; selection and draft are kept; a present text is shown with exactly the rows `get_text_with_words` returns for it; a missing one changes only the route id |
| Reader.NavigateToMissingKeepsOldText | src/pages/Read.jsx:22-24 | moving to a missing text keeps the previous text and snapshot |
| Reader.UpdateWords | src/pages/Read.jsx:31-39 | the refresh replaces only the snapshot, wholesale; on error nothing changes |
| Reader.RefreshedRowsAreStoreRows | src/pages/Read.jsx:31-39 | every row of a refreshed snapshot is the row the store finds for its form |
| Reader.ColourOf | src/components/ReadComponent.jsx:43 | grey exactly for `known` and `seen`, blue grey for every other status |
| Reader.Click | src/components/ReadComponent.jsx:41 | a click selects the row's stored form; draft, snapshot, text and route id are kept |
| Reader.ClosePanel | src/components/ReadComponent.jsx:56-58 | closing sets the selection to the empty string and keeps the draft, the text and the route id |
| Reader.SelectedEntry | src/components/ReadComponent.jsx:156 | the shown entry is the first row of the snapshot whose form is the selection; there is none exactly when nothing is selected or no row has that form |
| Reader.ShownMeaning | src/components/ReadComponent.jsx:255 | a non-empty text shown is the meaning of the selected entry; without an entry or a meaning nothing is shown; when the first row with the selected form has a meaning, exactly that meaning is shown |
| Reader.ClosedPanelShowsNoMeaning | src/components/ReadComponent.jsx:56-58 | after closing the panel, no entry is selected and no meaning shows, as no stored form is empty |
| Reader.ClickSelectsEntry | src/components/ReadComponent.jsx:41-43 | after a click, the entry shown is a row with the colour of the clicked piece |
| Reader.KeepLetters | src/components/ReadComponent.jsx:167 | the stripped selection holds only letters, marks and white space from the selection; a selection of only those is kept whole |
| Reader.KeepLettersChar | src/components/ReadComponent.jsx:167 | one character is kept exactly when it is a letter, a mark or white space |
| Reader.KeepLettersAppend | src/components/ReadComponent.jsx:167 | stripping works piecewise over concatenation, so every character is kept or dropped on its own, in order |
| Reader.LettersAreKept | src/components/ReadComponent.jsx:167 | a store form survives stripping unchanged |
| Reader.TargetId | src/components/ReadComponent.jsx:170-173 | the handlers' target is the id of the first snapshot row whose form is the stripped selection; there is one exactly when the selection is non-empty and that row exists with a non-zero id |
| Reader.TargetIdFound | src/components/ReadComponent.jsx:170-173 | when the stripped selection finds a row with a non-zero id, the target is that id |
| Reader.SaveMeaning | src/components/ReadComponent.jsx:162-187 | no selection, a blank draft or no target changes nothing; otherwise the store is `update_word_meaning` with the untrimmed draft; on success the snapshot is refreshed and the draft cleared; on failure nothing changes |
| Reader.ByteOrderMarkDraftSkipped | src/components/ReadComponent.jsx:163 | a draft of only U+FEFF is blank for `trim`, so nothing is saved |
| Reader.MarkKnown | src/components/ReadComponent.jsx:189-212 | no selection changes nothing; without a target only the save runs; with a target, the save runs, then `mark_word_as_known` on the target: on failure the saved state stays, on success the rows are refreshed from the marked store; the invariant holds |
| Reader.SaveRecolours | src/components/ReadComponent.jsx:162-187 | a successful save stores the draft as the meaning and makes the word `seen`; the draft clears; every occurrence of the word renders grey |
| Reader.MarkKnownOutcome | src/components/ReadComponent.jsx:189-212 | the word ends `known` with no next review; its meaning is the draft when non-blank, else the old one; it is never drawn for review; every occurrence renders grey |
| Reader.PiecesFollowStore | src/components/ReadComponent.jsx:32-43 | against store rows, every clickable piece of a stored word has the colour of that word's status in the store |
| Reader.ClickTargetsClassified | src/components/ReadComponent.jsx:167-173 | clicking a classified piece aims both handlers at the row the piece was found by |
| Reader.ClosedPanelActsOnNothing | src/components/ReadComponent.jsx:162-192 | after the panel is closed, neither handler changes anything |
| Review.ViewOf | src/components/Review.jsx:57-91 | the exhausted notice shows iff nothing remains; the back and the rating buttons show iff the answer is open; the front is the current word or "Loading..."; the open answer shows the four rating buttons and the back is the non-empty meaning or "---" |
| Review.ButtonsAreRatings | src/components/Review.jsx:85-88 | every button sends a rating the store accepts, and every rating has a button |
| Review.ApplyFetch | src/components/Review.jsx:11-29 | a word replaces the card, closed, with words remaining; exactly the empty-queue error marks the queue empty; any other error changes nothing else |
| Review.Fetch | src/components/Review.jsx:11-29 | the queue shows empty exactly when no word is due, and then the card is kept; otherwise a closed card holds a due word of the store with the earliest next review |
| Review.MountShowsQueue | src/components/Review.jsx:31-33 | on opening, the exhausted notice shows iff no word is due; otherwise a closed card shows the word |
| Review.ToggleAnswer | src/components/Review.jsx:35-37 | the answer flag flips and nothing else changes |
| Review.RatingClick | src/components/Review.jsx:40-53 | without a card nothing happens; a failed review changes nothing; a successful one fetches the next word from the updated store |
| Review.RatedWordDoesNotReturn | src/components/Review.jsx:40-53 | rating by any button reschedules the word, and the next card within a day is a different word |
| Review.LastWordEmptiesQueue | src/components/Review.jsx:40-60 | rating the only due word leads to the exhausted notice |
| Flags.TablesWellFormed | src/components/ImageDropdown.jsx:6-36 | twelve options with ids 0 to 11; the codes are distinct; the urls are distinct; the default is the `tr` image |
| Flags.IdToCountryCode | src/components/ImageDropdown.jsx:23-36 | a code exactly for the ids 0 to 11 |
| Flags.CountryCodeToId | src/components/ImageDropdown.jsx:38-40 | an id exactly for the twelve codes |
| Flags.CodeTablesInverse | src/components/ImageDropdown.jsx:23-40 | id-to-code and code-to-id are inverse to each other, in both directions |
| Flags.OptionByUrl | src/components/ImageDropdown.jsx:68 | an option exactly for a url of the menu, and it is the one with that url |
| Flags.LoadSaved | src/components/ImageDropdown.jsx:42-62 | the selection changes only for a saved known code, and then to the image of that code |
| Flags.HandleChange | src/components/ImageDropdown.jsx:64-81 | the selection follows the menu; a url of the menu saves its option's code, any other saves nothing |
| Flags.ChoiceSurvivesRestart | src/components/ImageDropdown.jsx:42-81 | saving a choice and loading it back selects the same image |
| Flags.LoadSavedCode | src/components/ImageDropdown.jsx:42-81 | loading the code at an index of the code table selects the image at the same index |
| Flags.FreshStartShowsDefault | src/components/ImageDropdown.jsx:6 | without a saved code the Turkish flag stays selected |

## Left out

- Sync and import (`generate_sync_key`, `apply_sync_key`, `export_database`, `import_database`, the compression helpers): gzip, base64 and serde are foreign libraries. The `Other` status stands for the values only an imported database could hold.
- `update_word_parameters` and `estimate_word_retention`: floating-point exponentials and logarithms. The scheduled day count is a parameter of `review_word`.
- WordCommands.ReviewWord: the stability and difficulty columns it updates, and the "Invalid last review date format" error, are not modelled, because dates are integers here and cannot fail to parse.
- `get_texts`, `get_text_by_id` and `get_all_words`: plain reads with no logic beyond the query.
- `init_db`, the connection pool, transactions and database failures ("Database error: …"); only the errors the commands produce themselves are modelled.
- Clocks: `chrono::Utc::now()` and the RFC 3339 strings are an integer parameter; the string comparison of dates becomes an integer comparison.
- Unicode classes: `\p{L}`, `\p{M}` and the word characters of `\b` are predicates covering Latin (Basic, Latin-1, Extended-A and -B) and Cyrillic only, the scripts of the twelve locales. White space is modelled exactly, by two predicates. `Chars.IsSpace` serves `trim` and `\s` in the reader and holds U+FEFF. `Chars.IsRustSpace` serves `split_whitespace` in the store and holds U+0085; `Chars.RustWhiteSpace` lists the same characters as a set. The two predicates agree on every other character.
- The reader's `handleSaveMeaning()` inside `handleMarkAsKnown` is not awaited and races `mark_word_as_known`; the model runs the save first, to completion, and does not verify the race.
- Every other handler and fetch is also taken to run to completion, in event order. The fetch effect of `Read.jsx` has no cleanup, so a slow `get_text_with_words` for an earlier route id could resolve after the one for a later id and overwrite the text; the model's `Reader.Navigate` shows the later text. A rating clicked twice before the next card arrives reviews the same word twice; the model's `Review.RatingClick` fetches the next card before the next click.
- `parseInt` of the route id: the route id is taken as an integer already.
- The dictionary and translator url tables of the reader, the iframe, the locale lookup of the reader, the console logging and the alert on a failed save.
- Home, Vocab, word list, text list, navigation, new-text and edit pages: layout and thin command calls.
- Commands.UpdateText: for an id that names no text, the words of the content are still linked to that id. The table definitions (`schema.sql`) are not part of this model, so it is not known whether `text_words.text_id` references `texts`. With such a key and `foreign_keys(true)`, the first link would fail after its word row was inserted. The model assumes there is no such key.

## Findings

| source | as written | input that shows it | evidently intended | confidence | as-written member | corrected member |
|---|---|---|---|---|---|---|
| src/components/ReadComponent.jsx:27 | the character class holds `â€œ`, the UTF-8 bytes of the opening curly quote read as Windows-1252: the letters U+00E2 and U+0153 and the sign U+20AC | a text "âge" whose snapshot holds the row "âge": cleaning yields "ge", no row has that form, so the word renders plain and cannot be clicked | the class holds the opening curly quote U+201C, so that a run of letters and digits is clickable iff a row has it as its form | not executed | Reader.ClassifyAsWritten, Reader.AsWrittenMissesAccentedWord | Reader.Classify, Reader.WordRunClickable |

=== FILE: chars.dfy ===
/** Character classes used by the regular expressions of the reader and the
    store, and the two fixed punctuation sets.

    The letter, mark and word-character classes are approximations
    restricted to the scripts of the twelve supported locales: Latin (Basic,
    Latin-1, Extended-A and -B) and Cyrillic. The two white-space sets are
    complete. */
module Chars {

  /** `\p{L}`: a Unicode letter. */
  predicate IsLetter(c: char)
  {
    || 'A' <= c <= 'Z'
    || 'a' <= c <= 'z'
    || c == '\U{AA}' || c == '\U{B5}' || c == '\U{BA}'
    || ('\U{C0}' <= c <= '\U{24F}' && c != '\U{D7}' && c != '\U{F7}')
    || '\U{400}' <= c <= '\U{481}'
    || '\U{48A}' <= c <= '\U{4FF}'
  }

  /** `\p{M}`: a combining mark. */
  predicate IsMark(c: char)
  {
    '\U{300}' <= c <= '\U{36F}' || '\U{483}' <= c <= '\U{489}'
  }

  /** `\d` of a JavaScript regular expression: an ASCII digit. */
  predicate IsDigit(c: char)
  {
    '0' <= c <= '9'
  }

  /** The white space JavaScript and Rust agree on: the ASCII controls tab
      to carriage return, the Unicode space separators, and the line and
      paragraph separators. */
  predicate IsSharedSpace(c: char)
  {
    || '\t' <= c <= '\r'
    || c == ' ' || c == '\U{A0}' || c == '\U{1680}'
    || '\U{2000}' <= c <= '\U{200A}'
    || c == '\U{2028}' || c == '\U{2029}' || c == '\U{202F}' || c == '\U{205F}' || c == '\U{3000}'
  }

  /** White space of `String.prototype.trim` and of `\s` in a JavaScript
      regular expression: the shared set and the byte order mark U+FEFF. */
  predicate IsSpace(c: char)
  {
    IsSharedSpace(c) || c == '\U{FEFF}'
  }

  /** White space of Rust's `char::is_whitespace`, which `split_whitespace`
      splits on: the shared set and the next-line control U+0085. */
  predicate IsRustSpace(c: char)
  {
    IsSharedSpace(c) || c == '\U{85}'
  }

  /** The same Rust white space as a set, for deleting it. */
  const RustWhiteSpace: set<char> :=
    { '\t', '\n', '\U{B}', '\U{C}', '\r', ' ', '\U{85}', '\U{A0}', '\U{1680}',
      '\U{2000}', '\U{2001}', '\U{2002}', '\U{2003}', '\U{2004}', '\U{2005}',
      '\U{2006}', '\U{2007}', '\U{2008}', '\U{2009}', '\U{200A}',
      '\U{2028}', '\U{2029}', '\U{202F}', '\U{205F}', '\U{3000}' }

  lemma RustWhiteSpaceIsRustSpace(c: char)
    ensures c in RustWhiteSpace <==> IsRustSpace(c)
  {
  }

  /** `[\p{L}\d]`: the characters the reader keeps together in one segment. */
  predicate IsLetterOrDigit(c: char)
  {
    IsLetter(c) || IsDigit(c)
  }

  /** A word character of the `\b` assertion of the Rust regex crate:
      letters, marks, digits, connector punctuation and the join controls. */
  predicate IsWordChar(c: char)
  {
    IsLetter(c) || IsMark(c) || IsDigit(c) || c == '_' || c == '\U{200C}' || c == '\U{200D}'
  }

  /** The class of `PUNCTUATION_REGEX` in the store (hyphen included). */
  const StorePunctuation: set<char> :=
    { '.', ',', ':', '!', '?', '"', '\'', '/', '[', ']', '(', ')', '{', '}', '<', '>', '-',
      '\U{2019}', '\U{201C}', '\U{201D}', '\U{2026}', '\U{AB}', '\U{BB}' }

  /** The class the reader strips from a segment, exactly as the source file
      spells it: the opening curly quote was saved as the three characters
      U+00E2, U+20AC and U+0153. */
  const ReaderPunctuationAsWritten: set<char> :=
    { '.', ',', ':', '/', '"', '\U{E2}', '\U{20AC}', '\U{153}', '\'', '[', ']', '(', ')', '{', '}', '<', '>' }

  /** The same class with the opening curly quote it evidently names. */
  const ReaderPunctuation: set<char> :=
    { '.', ',', ':', '/', '"', '\U{201C}', '\'', '[', ']', '(', ')', '{', '}', '<', '>' }

  /** A letter or digit is neither reader punctuation nor white space. */
  lemma {:induction false} LetterOrDigitIsKept(c: char)
    requires IsLetterOrDigit(c)
    ensures c !in ReaderPunctuation && !IsSpace(c)
  {
  }
}

=== FILE: commands.dfy ===
/** The commands the backend exposes, as pure transitions of the store.
    Database failures (a lost connection, a locked file) are not modelled:
    every error below is one the commands produce themselves. */
module Commands {
  import opened Wrappers
  import opened Chars
  import opened Strings
  import opened Vocab
  import opened Extract

  const TextNotFound := "Text not found"
  const WordIdNotFound := "Word ID not found"
  const WordNotFound := "Word not found"
  const InvalidRating := "Invalid rating"
  const NoWordsDue := "No words are due for review"

  /* ---------------- Registering the words of a text ---------------- */

  /** A row as `create_text` and `update_text` insert it. */
  predicate IsFresh(w: Word)
  {
    w.status == New && w.meaning == None && w.lastReview == None && w.nextReview == None
  }

  /** Existing rows are kept untouched and in place; rows added after them
      are fresh. */
  predicate RowsGrow(ws: seq<Word>, ws': seq<Word>)
  {
    && |ws| <= |ws'|
    && ws'[..|ws|] == ws
    && forall k :: |ws| <= k < |ws'| ==> IsFresh(ws'[k])
  }

  /** Links are only added, and only for `textId`. */
  predicate LinksGrow(ls: set<Link>, ls': set<Link>, textId: int)
  {
    ls <= ls' && forall l :: l in ls' && l !in ls ==> l.textId == textId
  }

  /** Registering changes only the words and links of the store. */
  predicate Grows(st: Store, st': Store, textId: int)
  {
    && st'.texts == st.texts
    && st'.preference == st.preference
    && st'.nextTextId == st.nextTextId
    && RowsGrow(st.words, st'.words)
    && LinksGrow(st.links, st'.links, textId)
  }

  /** A row with surface form `form` exists and is linked to `textId`. */
  predicate Registered(st: Store, textId: int, form: string)
  {
    match WordByForm(st.words, form)
    case None => false
    case Some(w) => Link(textId, w.id) in st.links
  }

  /** The links that tie `textId` to every row whose surface form is among
      `forms`. */
  function LinksFor(ws: seq<Word>, textId: int, forms: seq<string>): set<Link>
  {
    set w | w in ws && w.word in forms :: Link(textId, w.id)
  }

  /** With unique forms, one form ties the text to exactly one row. */
  lemma LinksForOne(ws: seq<Word>, textId: int, form: string, k: nat)
    requires UniqueForms(ws) && k < |ws| && ws[k].word == form
    ensures LinksFor(ws, textId, [form]) == {Link(textId, ws[k].id)}
  {
    forall w | w in ws && w.word in [form]
      ensures w == ws[k]
    {
      var i :| 0 <= i < |ws| && ws[i] == w;
      assert i == k;
    }
  }

  /** The links of several forms are those of the first and of the rest. */
  lemma LinksForSplit(ws: seq<Word>, textId: int, forms: seq<string>)
    requires forms != []
    ensures LinksFor(ws, textId, forms) == LinksFor(ws, textId, [forms[0]]) + LinksFor(ws, textId, forms[1..])
  {
    assert forall f :: f in forms <==> f in [forms[0]] || f in forms[1..];
  }

  lemma {:induction false} GrowsTransitive(a: Store, b: Store, c: Store, textId: int)
    requires Grows(a, b, textId) && Grows(b, c, textId)
    ensures Grows(a, c, textId)
  {
    assert c.words[..|a.words|] == c.words[..|b.words|][..|a.words|];
  }

  /** Growing a store never undoes a registration, of any text. */
  lemma {:induction false} GrowsKeepsRegistered(st: Store, st': Store, textId: int, t: int, form: string)
    requires Grows(st, st', textId) && Valid(st')
    requires Registered(st, t, form)
    ensures Registered(st', t, form)
  {
    WordByFormPrefix(st.words, st'.words, form);
  }

  /** Link an existing row to the text. */
  function LinkRow(st: Store, textId: int, k: nat): (r: Store)
    requires Valid(st) && k < |st.words|
    ensures r.words == st.words && r.texts == st.texts && r.preference == st.preference
    ensures r.nextTextId == st.nextTextId && r.nextWordId == st.nextWordId
    ensures r.links == st.links + {Link(textId, st.words[k].id)}
    ensures Valid(r)
  {
    WordByIdAt(st.words, k);
    st.(links := st.links + {Link(textId, st.words[k].id)})
  }

  function FreshRow(id: int, form: string): (w: Word)
    ensures IsFresh(w) && w.id == id && w.word == form
  {
    Word(id, form, New, None, None, None)
  }

  /** Appending a row under the next id keeps keys and forms unique. */
  lemma AppendRowUnique(st: Store, form: string)
    requires Valid(st) && WordByForm(st.words, form).None?
    ensures UniqueIds(st.words + [FreshRow(st.nextWordId, form)])
    ensures UniqueForms(st.words + [FreshRow(st.nextWordId, form)])
  {
    var id := st.nextWordId;
    var ws := st.words + [FreshRow(id, form)];
    assert UniqueIds(ws) by {
      assert forall k :: 0 <= k < |st.words| ==> ws[k].id < id;
    }
    assert UniqueForms(ws) by {
      assert forall k :: 0 <= k < |st.words| ==> ws[k].word != form;
    }
  }

  /** Appending a row under the next id keeps every link pointing at a row. */
  lemma AppendRowLinks(st: Store, textId: int, form: string)
    requires Valid(st) && WordByForm(st.words, form).None?
    ensures var id := st.nextWordId; var ws := st.words + [FreshRow(id, form)];
      forall l :: l in st.links + {Link(textId, id)} ==> WordById(ws, l.wordId).Some?
  {
    var id := st.nextWordId;
    var ws := st.words + [FreshRow(id, form)];
    assert ws[..|st.words|] == st.words;
    AppendRowUnique(st, form);
    assert forall l :: l in st.links ==> WordById(ws, l.wordId).Some? by {
      forall l | l in st.links
        ensures WordById(ws, l.wordId).Some?
      {
        WordByIdPrefix(st.words, ws, l.wordId);
      }
    }
    assert WordById(ws, id).Some? by {
      WordByIdAt(ws, |st.words|);
    }
  }

  /** Append a fresh row for `form` under the next word id and link it. */
  function InsertRow(st: Store, textId: int, form: string): (r: Store)
    requires Valid(st) && WordByForm(st.words, form).None?
    ensures r.words == st.words + [FreshRow(st.nextWordId, form)]
    ensures r.texts == st.texts && r.preference == st.preference && r.nextTextId == st.nextTextId
    ensures r.links == st.links + {Link(textId, st.nextWordId)}
    ensures Valid(r)
  {
    AppendRowUnique(st, form);
    AppendRowLinks(st, textId, form);
    var id := st.nextWordId;
    st.(words := st.words + [FreshRow(id, form)], links := st.links + {Link(textId, id)}, nextWordId := id + 1)
  }

  /** What registering one word promises. */
  predicate RegistersWord(st: Store, textId: int, form: string, r: Store)
  {
    && Valid(r) && Grows(st, r, textId) && Registered(r, textId, form)
    && |r.words| == |st.words| + (if WordByForm(st.words, form).None? then 1 else 0)
    && (forall k :: |st.words| <= k < |r.words| ==> r.words[k].word == form)
    && (Registered(st, textId, form) ==> r == st)
  }

  lemma LinkRowRegisters(st: Store, textId: int, form: string, k: nat)
    requires Valid(st) && IndexOfForm(st.words, form) == Some(k)
    ensures RegistersWord(st, textId, form, LinkRow(st, textId, k))
  {
    var r := LinkRow(st, textId, k);
    WordByFormAt(st.words, k);
    assert st.words[..|st.words|] == st.words;
    assert Grows(st, r, textId);
    assert Registered(r, textId, form);
  }

  /** A form without a row is registered nowhere. */
  lemma Unregistered(st: Store, textId: int, form: string)
    requires WordByForm(st.words, form).None?
    ensures !Registered(st, textId, form)
  {
  }

  /** Appending a fresh row and a link for it only grows the store. */
  lemma AppendGrows(st: Store, r: Store, textId: int, form: string)
    requires r.words == st.words + [FreshRow(st.nextWordId, form)]
    requires r.texts == st.texts && r.preference == st.preference && r.nextTextId == st.nextTextId
    requires r.links == st.links + {Link(textId, st.nextWordId)}
    ensures Grows(st, r, textId)
    ensures forall k :: |st.words| <= k < |r.words| ==> r.words[k].word == form
  {
    assert r.words[..|st.words|] == st.words;
  }

  /** The appended row is the one a lookup of its form finds. */
  lemma AppendRegisters(st: Store, r: Store, textId: int, form: string)
    requires r.words == st.words + [FreshRow(st.nextWordId, form)]
    requires r.links == st.links + {Link(textId, st.nextWordId)}
    requires UniqueForms(r.words)
    ensures Registered(r, textId, form)
  {
    WordByFormAt(r.words, |st.words|);
  }

  lemma InsertRowRegisters(st: Store, textId: int, form: string)
    requires Valid(st) && WordByForm(st.words, form).None?
    ensures RegistersWord(st, textId, form, InsertRow(st, textId, form))
  {
    var r := InsertRow(st, textId, form);
    AppendGrows(st, r, textId, form);
    AppendRegisters(st, r, textId, form);
    Unregistered(st, textId, form);
  }

  /** One word of a text: reuse the row with that surface form or insert a
      fresh one, then link it to the text (`INSERT OR IGNORE`). */
  function RegisterWord(st: Store, textId: int, form: string): (r: Store)
    requires Valid(st)
    ensures Valid(r) && Grows(st, r, textId) && Registered(r, textId, form)
    ensures |r.words| == |st.words| + (if WordByForm(st.words, form).None? then 1 else 0)
    ensures forall k :: |st.words| <= k < |r.words| ==> r.words[k].word == form
    ensures r.links == st.links + LinksFor(r.words, textId, [form])
    ensures Registered(st, textId, form) ==> r == st
  {
    match IndexOfForm(st.words, form)
    case Some(k) =>
      LinkRowRegisters(st, textId, form, k);
      LinksForOne(st.words, textId, form, k);
      LinkRow(st, textId, k)
    case None =>
      InsertRowRegisters(st, textId, form);
      var r := InsertRow(st, textId, form);
      LinksForOne(r.words, textId, form, |st.words|);
      r
  }

  /** The link the first word made survives the rest, and the rest add
      theirs. */
  lemma RegisterStepLinks(st: Store, st1: Store, r: Store, textId: int, forms: seq<string>)
    requires forms != [] && UniqueForms(st1.words) && UniqueForms(r.words)
    requires |st1.words| <= |r.words| && r.words[..|st1.words|] == st1.words
    requires WordByForm(st1.words, forms[0]).Some?
    requires st1.links == st.links + LinksFor(st1.words, textId, [forms[0]])
    requires r.links == st1.links + LinksFor(r.words, textId, forms[1..])
    ensures r.links == st.links + LinksFor(r.words, textId, forms)
  {
    var k := IndexOfForm(st1.words, forms[0]).value;
    assert r.words[..|st1.words|][k] == r.words[k];
    LinksForOne(st1.words, textId, forms[0], k);
    LinksForOne(r.words, textId, forms[0], k);
    LinksForSplit(r.words, textId, forms);
  }

  /** Registering the first word, then the rest, registers them all. */
  lemma RegisterStep(st: Store, st1: Store, r: Store, textId: int, forms: seq<string>)
    requires forms != []
    requires Valid(st) && RegistersWord(st, textId, forms[0], st1)
    requires Valid(r) && Grows(st1, r, textId)
    requires forall f :: f in forms[1..] ==> Registered(r, textId, f)
    requires forall k :: |st1.words| <= k < |r.words| ==> r.words[k].word in forms[1..]
    ensures Grows(st, r, textId)
    ensures forall f :: f in forms ==> Registered(r, textId, f)
    ensures forall k :: |st.words| <= k < |r.words| ==> r.words[k].word in forms
  {
    GrowsTransitive(st, st1, r, textId);
    GrowsKeepsRegistered(st1, r, textId, textId, forms[0]);
    FormsRegistered(r, textId, forms);
    AddedRowsInForms(st.words, st1.words, r.words, forms);
  }

  /** The first form and the rest registered is every form registered. */
  lemma FormsRegistered(r: Store, textId: int, forms: seq<string>)
    requires forms != [] && Registered(r, textId, forms[0])
    requires forall f :: f in forms[1..] ==> Registered(r, textId, f)
    ensures forall f :: f in forms ==> Registered(r, textId, f)
  {
    assert forall f :: f in forms ==> f == forms[0] || f in forms[1..];
  }

  /** Rows added for the first form, then rows added for the rest, all
      carry one of the forms. */
  lemma AddedRowsInForms(ws: seq<Word>, ws1: seq<Word>, ws2: seq<Word>, forms: seq<string>)
    requires forms != [] && |ws| <= |ws1| <= |ws2| && ws2[..|ws1|] == ws1
    requires forall k :: |ws| <= k < |ws1| ==> ws1[k].word == forms[0]
    requires forall k :: |ws1| <= k < |ws2| ==> ws2[k].word in forms[1..]
    ensures forall k :: |ws| <= k < |ws2| ==> ws2[k].word in forms
  {
    assert forall k :: |ws| <= k < |ws1| ==> ws2[k] == ws1[k];
    assert forall f :: f in forms[1..] ==> f in forms;
  }

  /** All words of a text, in order. */
  function RegisterWords(st: Store, textId: int, forms: seq<string>): (r: Store)
    requires Valid(st)
    ensures Valid(r) && Grows(st, r, textId)
    ensures forall f :: f in forms ==> Registered(r, textId, f)
    ensures forall k :: |st.words| <= k < |r.words| ==> r.words[k].word in forms
    ensures r.links == st.links + LinksFor(r.words, textId, forms)
    decreases |forms|
  {
    if forms == [] then
      assert st.words[..|st.words|] == st.words;
      st
    else
      var st1 := RegisterWord(st, textId, forms[0]);
      var r := RegisterWords(st1, textId, forms[1..]);
      RegisterStep(st, st1, r, textId, forms);
      RegisterStepLinks(st, st1, r, textId, forms);
      r
  }

  /** Registering forms that are all registered already changes nothing. */
  lemma {:induction false} RegisterWordsAlreadyRegistered(st: Store, textId: int, forms: seq<string>)
    requires Valid(st)
    requires forall f :: f in forms ==> Registered(st, textId, f)
    ensures RegisterWords(st, textId, forms) == st
    decreases |forms|
  {
    if forms != [] {
      assert RegisterWord(st, textId, forms[0]) == st;
      RegisterWordsAlreadyRegistered(st, textId, forms[1..]);
    }
  }

  /** Links are set-like: registering the same words twice is registering
      them once. */
  lemma RegisterWordsIdempotent(st: Store, textId: int, forms: seq<string>)
    requires Valid(st)
    ensures RegisterWords(RegisterWords(st, textId, forms), textId, forms) == RegisterWords(st, textId, forms)
  {
    RegisterWordsAlreadyRegistered(RegisterWords(st, textId, forms), textId, forms);
  }

  /** `create_text`: insert the text under the next id, then register the
      words of its content. */
  function CreateText(st: Store, title: string, content: string): (r: (Store, TextRow))
    requires Valid(st)
    ensures var (st', t) := r;
      && t == TextRow(st.nextTextId, title, content)
      && t.id !in st.texts
      && st'.texts == st.texts[t.id := t]
      && st'.nextTextId == st.nextTextId + 1
      && st'.preference == st.preference
      && Valid(st')
      && RowsGrow(st.words, st'.words)
      && LinksGrow(st.links, st'.links, t.id)
      && (forall k :: |st.words| <= k < |st'.words| ==> st'.words[k].word in ExtractWords(content))
      && st'.links == st.links + LinksFor(st'.words, t.id, ExtractWords(content))
      && forall w :: w in ExtractWords(content) ==> Registered(st', t.id, w)
  {
    var t := TextRow(st.nextTextId, title, content);
    var st1 := st.(texts := st.texts[t.id := t], nextTextId := st.nextTextId + 1);
    (RegisterWords(st1, t.id, ExtractWords(content)), t)
  }

  /** `update_text`: overwrite title and content of the text if it exists
      (an absent id updates no row and is no error), then register the words
      of the new content. Links of words the old content had are kept. */
  function UpdateText(st: Store, id: int, title: string, content: string): (r: Store)
    requires Valid(st)
    ensures Valid(r)
    ensures r.texts == (if id in st.texts then st.texts[id := TextRow(id, title, content)] else st.texts)
    ensures r.nextTextId == st.nextTextId && r.preference == st.preference
    ensures RowsGrow(st.words, r.words) && LinksGrow(st.links, r.links, id)
    ensures forall k :: |st.words| <= k < |r.words| ==> r.words[k].word in ExtractWords(content)
    ensures r.links == st.links + LinksFor(r.words, id, ExtractWords(content))
    ensures forall w :: w in ExtractWords(content) ==> Registered(r, id, w)
  {
    var texts := if id in st.texts then st.texts[id := TextRow(id, title, content)] else st.texts;
    RegisterWords(st.(texts := texts), id, ExtractWords(content))
  }

  /** Saving a text twice with the same content leaves words and links as
      the first save left them. */
  lemma UpdateTextIdempotent(st: Store, id: int, title: string, content: string)
    requires Valid(st)
    ensures UpdateText(UpdateText(st, id, title, content), id, title, content) == UpdateText(st, id, title, content)
  {
    var st1 := UpdateText(st, id, title, content);
    assert id in st1.texts ==> st1.texts[id] == TextRow(id, title, content);
    UpdateTextSaved(st1, id, title, content);
  }

  /** Saving a text the store holds as it is, whose words are all
      registered for it, changes nothing. */
  lemma UpdateTextSaved(st: Store, id: int, title: string, content: string)
    requires Valid(st)
    requires id in st.texts ==> st.texts[id] == TextRow(id, title, content)
    requires forall w :: w in ExtractWords(content) ==> Registered(st, id, w)
    ensures UpdateText(st, id, title, content) == st
  {
    var texts := if id in st.texts then st.texts[id := TextRow(id, title, content)] else st.texts;
    assert texts == st.texts;
    assert st.(texts := texts) == st;
    RegisterWordsAlreadyRegistered(st, id, ExtractWords(content));
  }

  /* ---------------- Reading a text with its words ---------------- */

  /** A character of a token is a character of the concatenation. */
  lemma {:induction false} InConcat(ss: seq<string>, k: nat, i: nat)
    requires k < |ss| && i < |ss[k]|
    ensures ss[k][i] in Concat(ss)
    decreases k
  {
    if k > 0 {
      InConcat(ss[1..], k - 1, i);
    }
  }

  /** The tokens `get_text_with_words` looks up: the content with every
      character of `PUNCTUATION_REGEX` deleted, split on white space. */
  function FetchTokens(content: string): (r: seq<string>)
    ensures forall k :: 0 <= k < |r| ==> IsToken(r[k])
    ensures forall k, i :: 0 <= k < |r| && 0 <= i < |r[k]| ==> r[k][i] !in StorePunctuation
    ensures Concat(r) == RemoveChars(RemoveChars(content, StorePunctuation), RustWhiteSpace)
  {
    var cleaned := RemoveChars(content, StorePunctuation);
    var r := SplitWhitespace(cleaned);
    assert forall k, i :: 0 <= k < |r| && 0 <= i < |r[k]| ==> r[k][i] !in StorePunctuation by {
      forall k, i | 0 <= k < |r| && 0 <= i < |r[k]|
        ensures r[k][i] !in StorePunctuation
      {
        InConcat(r, k, i);
      }
    }
    r
  }

  /** The tokens are exactly the pieces white space separates in the
      content once its punctuation is deleted. */
  lemma FetchTokensSplit(content: string, seps: seq<string>, tokens: seq<string>)
    requires Separates(seps, tokens)
    requires Interleave(seps, tokens) == RemoveChars(content, StorePunctuation)
    ensures FetchTokens(content) == tokens
  {
    SplitWhitespaceUnique(RemoveChars(content, StorePunctuation), seps, tokens);
  }

  /** `split_whitespace` splits on the next-line control U+0085, which
      JavaScript does not count as white space. */
  lemma NextLineSeparatesTokens()
    ensures FetchTokens("a\U{85}b") == ["a", "b"]
  {
    var s := "a\U{85}b";
    assert s[0] !in StorePunctuation && s[1] !in StorePunctuation && s[2] !in StorePunctuation;
    RemoveCharsNone(s, StorePunctuation);
    NextLineSplits();
  }

  /** The row a token finds, if any: the one whose surface form equals the
      token exactly (case-sensitive). */
  predicate RowOfToken(ws: seq<Word>, w: Word)
  {
    WordByForm(ws, w.word) == Some(w)
  }

  /** The lookup of one token: its row, or nothing. */
  function Hit(ws: seq<Word>, token: string): (r: seq<Word>)
    ensures |r| <= 1
    ensures forall w :: multiset(r)[w] == (if RowOfToken(ws, w) && w.word == token then 1 else 0)
  {
    match WordByForm(ws, token)
    case None => []
    case Some(w) => [w]
  }

  /** One lookup per token, in token order, keeping the hits. */
  function MatchTokens(ws: seq<Word>, tokens: seq<string>): (r: seq<Word>)
    ensures |r| <= |tokens|
    ensures forall w :: multiset(r)[w] == (if RowOfToken(ws, w) then multiset(tokens)[w.word] else 0)
  {
    if tokens == [] then []
    else
      var rest := MatchTokens(ws, tokens[1..]);
      assert tokens == [tokens[0]] + tokens[1..];
      Hit(ws, tokens[0]) + rest
  }

  /** Lookups preserve token order: the hits of two pieces of text are the
      hits of the first followed by those of the second. */
  lemma {:induction false} MatchTokensAppend(ws: seq<Word>, a: seq<string>, b: seq<string>)
    ensures MatchTokens(ws, a + b) == MatchTokens(ws, a) + MatchTokens(ws, b)
  {
    if a == [] {
      assert a + b == b;
    } else {
      calc {
        MatchTokens(ws, a + b);
        Hit(ws, a[0]) + MatchTokens(ws, (a + b)[1..]);
        { assert (a + b)[1..] == a[1..] + b; }
        Hit(ws, a[0]) + MatchTokens(ws, a[1..] + b);
        { MatchTokensAppend(ws, a[1..], b); }
        Hit(ws, a[0]) + (MatchTokens(ws, a[1..]) + MatchTokens(ws, b));
        MatchTokens(ws, a) + MatchTokens(ws, b);
      }
    }
  }

  /** `get_text_with_words`. */
  function GetTextWithWords(st: Store, id: int): (r: Result<(TextRow, seq<Word>)>)
    ensures r.Err? <==> id !in st.texts
    ensures r.Err? ==> r.error == TextNotFound
    ensures r.Ok? ==> r.value.0 == st.texts[id]
    ensures r.Ok? ==> var tokens := FetchTokens(st.texts[id].content);
      forall w :: multiset(r.value.1)[w] == (if RowOfToken(st.words, w) then multiset(tokens)[w.word] else 0)
  {
    if id !in st.texts then Err(TextNotFound)
    else
      var t := st.texts[id];
      Ok((t, MatchTokens(st.words, FetchTokens(t.content))))
  }

  /** The rows come back in the order of the tokens that find them: given
      the content's tokens, they are the lookups of those tokens in order. */
  lemma GetTextWithWordsRows(st: Store, id: int, seps: seq<string>, tokens: seq<string>)
    requires id in st.texts
    requires Separates(seps, tokens)
    requires Interleave(seps, tokens) == RemoveChars(st.texts[id].content, StorePunctuation)
    ensures GetTextWithWords(st, id) == Ok((st.texts[id], MatchTokens(st.words, tokens)))
  {
    FetchTokensSplit(st.texts[id].content, seps, tokens);
  }

  /* ---------------- Counting the words of a text ---------------- */

  datatype Counts = Counts(newCount: nat, seenCount: nat, knownCount: nat)

  function LinksOf(st: Store, textId: int): set<Link>
  {
    set l | l in st.links && l.textId == textId
  }

  function StatusOfId(ws: seq<Word>, id: int): Option<Status>
  {
    match WordById(ws, id)
    case None => None
    case Some(w) => Some(w.status)
  }

  /** Links of the text that join a row with status `s`. */
  function LinkedWithStatus(st: Store, textId: int, s: Status): set<Link>
  {
    set l | l in st.links && l.textId == textId && StatusOfId(st.words, l.wordId) == Some(s)
  }

  lemma SubsetCardinality<T>(a: set<T>, b: set<T>)
    requires a <= b
    ensures |a| <= |b|
  {
    assert b == a + (b - a);
  }

  /** `get_text_word_counts`: the links of the text joined with `words`,
      counted per status. Rows of any other status, and links whose row is
      gone, count nowhere. */
  function GetTextWordCounts(st: Store, textId: int): (c: Counts)
    ensures c.newCount + c.seenCount + c.knownCount <= |LinksOf(st, textId)|
    ensures (forall l :: l in LinksOf(st, textId) ==> StatusOfId(st.words, l.wordId) in {Some(New), Some(Seen), Some(Known)})
            ==> c.newCount + c.seenCount + c.knownCount == |LinksOf(st, textId)|
    ensures LinksOf(st, textId) == {} ==> c == Counts(0, 0, 0)
  {
    var a := LinkedWithStatus(st, textId, New);
    var b := LinkedWithStatus(st, textId, Seen);
    var k := LinkedWithStatus(st, textId, Known);
    var all := LinksOf(st, textId);
    assert a * b == {} && (a + b) * k == {};
    assert |a + b + k| == |a| + |b| + |k|;
    SubsetCardinality(a + b + k, all);
    assert (forall l :: l in all ==> StatusOfId(st.words, l.wordId) in {Some(New), Some(Seen), Some(Known)})
           ==> a + b + k == all;
    Counts(|a|, |b|, |k|)
  }

  /* ---------------- Deleting a text ---------------- */

  /** `delete_text`: the text and its links go, in one transaction; word
      rows stay. An absent id deletes nothing and is no error. */
  function DeleteText(st: Store, textId: int): (r: Store)
    requires Valid(st)
    ensures Valid(r)
    ensures textId !in r.texts && forall t :: t != textId ==> (t in r.texts <==> t in st.texts)
    ensures forall t :: t in r.texts ==> r.texts[t] == st.texts[t]
    ensures forall l :: l in r.links <==> l in st.links && l.textId != textId
    ensures r.words == st.words && r.preference == st.preference
    ensures r.nextTextId == st.nextTextId && r.nextWordId == st.nextWordId
  {
    st.(texts := st.texts - {textId}, links := st.links - LinksOf(st, textId))
  }

  /** After deleting a text it can no longer be read, it counts no words,
      and every other text reads exactly as before. */
  lemma DeleteTextForgets(st: Store, textId: int)
    requires Valid(st)
    ensures GetTextWithWords(DeleteText(st, textId), textId) == Err(TextNotFound)
    ensures GetTextWordCounts(DeleteText(st, textId), textId) == Counts(0, 0, 0)
    ensures forall t :: t != textId ==> GetTextWithWords(DeleteText(st, textId), t) == GetTextWithWords(st, t)
  {
    var r := DeleteText(st, textId);
    assert LinksOf(r, textId) == {};
  }
}

=== FILE: extract.dfy ===
/** The words a text registers: the matches of `\b\p{L}+\b` (Rust regex
    crate, Unicode mode), found left to right without overlap. */
module Extract {
  import opened Chars

  datatype Span = Span(start: nat, end: nat)

  /** A match of `\b\p{L}+\b` at `[i, j)`: a non-empty run of letters whose
      neighbours, where they exist, are not word characters. Such a run is a
      maximal letter run; one that touches a digit, a mark or `_` is none. */
  predicate IsBoundedRun(s: string, i: int, j: int)
  {
    && 0 <= i < j <= |s|
    && (forall k :: i <= k < j ==> IsLetter(s[k]))
    && (i == 0 || !IsWordChar(s[i - 1]))
    && (j == |s| || !IsWordChar(s[j]))
  }

  /** End of the letter run starting at `from`. */
  function RunEnd(s: string, from: nat): (e: nat)
    requires from <= |s|
    ensures from <= e <= |s|
    ensures forall k :: from <= k < e ==> IsLetter(s[k])
    ensures e < |s| ==> !IsLetter(s[e])
    decreases |s| - from
  {
    if from == |s| || !IsLetter(s[from]) then from else RunEnd(s, from + 1)
  }

  /** `from` is not strictly inside a run of letters. */
  predicate AtRunBoundary(s: string, from: nat)
    requires from <= |s|
  {
    from == 0 || from == |s| || !IsLetter(s[from - 1]) || !IsLetter(s[from])
  }

  /** No bounded run starts inside the letter run `[from, e)` except one
      covering it exactly. */
  lemma RunCovers(s: string, from: nat, e: nat, i: int, j: int)
    requires from < e <= |s|
    requires forall k :: from <= k < e ==> IsLetter(s[k])
    requires e < |s| ==> !IsLetter(s[e])
    requires from <= i < e && IsBoundedRun(s, i, j)
    ensures i == from && j == e
  {
  }

  /** Matches in front of the letter run `[from, e)` start after it. */
  lemma RestAfterRun(s: string, from: nat, e: nat, rest: seq<Span>)
    requires from < e <= |s|
    requires forall k :: from <= k < e ==> IsLetter(s[k])
    requires forall k :: 0 <= k < |rest| ==> e <= rest[k].start && IsBoundedRun(s, rest[k].start, rest[k].end)
    requires forall k :: 0 < k < |rest| ==> rest[k - 1].end < rest[k].start
    ensures var r := (if IsBoundedRun(s, from, e) then [Span(from, e)] else []) + rest;
      && (forall k :: 0 <= k < |r| ==> from <= r[k].start && IsBoundedRun(s, r[k].start, r[k].end))
      && (forall k :: 0 < k < |r| ==> r[k - 1].end < r[k].start)
  {
    forall k | 0 <= k < |rest|
      ensures e < rest[k].start
    {
      assert IsLetter(s[rest[k].start]);
    }
  }

  /** Every bounded run from `from` on is the run `[from, e)` or a later one. */
  lemma RunThenRest(s: string, from: nat, e: nat, rest: seq<Span>)
    requires from < e <= |s|
    requires forall k :: from <= k < e ==> IsLetter(s[k])
    requires e < |s| ==> !IsLetter(s[e])
    requires forall i, j :: e <= i && IsBoundedRun(s, i, j) ==> Span(i, j) in rest
    ensures var r := (if IsBoundedRun(s, from, e) then [Span(from, e)] else []) + rest;
      forall i, j :: from <= i && IsBoundedRun(s, i, j) ==> Span(i, j) in r
  {
    forall i, j | from <= i < e && IsBoundedRun(s, i, j)
      ensures i == from && j == e
    {
      RunCovers(s, from, e, i, j);
    }
  }

  /** The spans `find_iter` reports from position `from` on: exactly the
      bounded runs starting there, in increasing order. */
  function Matches(s: string, from: nat): (r: seq<Span>)
    requires from <= |s| && AtRunBoundary(s, from)
    ensures forall k :: 0 <= k < |r| ==> from <= r[k].start && IsBoundedRun(s, r[k].start, r[k].end)
    ensures forall k :: 0 < k < |r| ==> r[k - 1].end < r[k].start
    ensures forall i, j :: from <= i && IsBoundedRun(s, i, j) ==> Span(i, j) in r
    decreases |s| - from
  {
    if from == |s| then []
    else if IsLetter(s[from]) then
      var e := RunEnd(s, from);
      var rest := Matches(s, e);
      RestAfterRun(s, from, e, rest);
      RunThenRest(s, from, e, rest);
      (if IsBoundedRun(s, from, e) then [Span(from, e)] else []) + rest
    else
      Matches(s, from + 1)
  }

  predicate AllLetters(w: string)
  {
    forall i :: 0 <= i < |w| ==> IsLetter(w[i])
  }

  /** The substrings of `s` the spans cover, in order. */
  function Cut(s: string, spans: seq<Span>): (r: seq<string>)
    requires forall k :: 0 <= k < |spans| ==> spans[k].start <= spans[k].end <= |s|
    ensures |r| == |spans|
    ensures forall k :: 0 <= k < |r| ==> r[k] == s[spans[k].start..spans[k].end]
  {
    if spans == [] then [] else [s[spans[0].start..spans[0].end]] + Cut(s, spans[1..])
  }

  /** Spans that are bounded runs cut into non-empty letter words. */
  lemma CutAreWords(s: string, spans: seq<Span>)
    requires forall k :: 0 <= k < |spans| ==> IsBoundedRun(s, spans[k].start, spans[k].end)
    ensures forall k :: 0 <= k < |spans| ==> spans[k].start <= spans[k].end <= |s|
    ensures forall k :: 0 <= k < |spans| ==> var w := Cut(s, spans)[k]; w != [] && AllLetters(w)
  {
    forall k | 0 <= k < |spans|
      ensures spans[k].start <= spans[k].end <= |s|
    {
      assert IsBoundedRun(s, spans[k].start, spans[k].end);
    }
    var r := Cut(s, spans);
    forall k | 0 <= k < |spans|
      ensures r[k] != [] && AllLetters(r[k])
    {
      assert IsBoundedRun(s, spans[k].start, spans[k].end);
    }
  }

  /** A span listed is a word cut. */
  lemma CutHasSpan(s: string, spans: seq<Span>, i: nat, j: nat)
    requires forall k :: 0 <= k < |spans| ==> spans[k].start <= spans[k].end <= |s|
    requires Span(i, j) in spans
    ensures i <= j <= |s| && s[i..j] in Cut(s, spans)
  {
    var k :| 0 <= k < |spans| && spans[k] == Span(i, j);
    assert Cut(s, spans)[k] == s[i..j];
  }

  /** The words of `s` in text order, one per match. */
  function ExtractWords(s: string): (r: seq<string>)
    ensures forall k :: 0 <= k < |r| ==> r[k] != [] && AllLetters(r[k])
    ensures forall i, j :: IsBoundedRun(s, i, j) ==> s[i..j] in r
  {
    var spans := Matches(s, 0);
    CutAreWords(s, spans);
    assert forall i, j :: IsBoundedRun(s, i, j) ==> s[i..j] in Cut(s, spans) by {
      forall i, j | IsBoundedRun(s, i, j)
        ensures s[i..j] in Cut(s, spans)
      {
        CutHasSpan(s, spans, i, j);
      }
    }
    Cut(s, spans)
  }

  /** Every word extracted is a bounded run of the text. */
  lemma ExtractedAreBoundedRuns(s: string, w: string)
    requires w in ExtractWords(s)
    ensures exists i, j :: IsBoundedRun(s, i, j) && w == s[i..j]
  {
    var spans := Matches(s, 0);
    var k :| 0 <= k < |ExtractWords(s)| && ExtractWords(s)[k] == w;
    assert IsBoundedRun(s, spans[k].start, spans[k].end);
  }

  /** "abc1" holds no bounded run: its letter run ends at a digit. */
  lemma NoBoundedRunInAbc1(i: int, j: int)
    ensures !IsBoundedRun("abc1", i, j)
  {
    var s := "abc1";
    assert s[3] == '1' && !IsLetter(s[3]) && IsWordChar(s[3]);
    assert forall k :: 0 <= k < 3 ==> IsWordChar(s[k]);
  }

  /** A letter run that touches a digit is not a match: "abc1" registers no
      word at all. */
  lemma LetterRunTouchingDigitNotRegistered()
    ensures ExtractWords("abc1") == []
  {
    var spans := Matches("abc1", 0);
    if spans != [] {
      NoBoundedRunInAbc1(spans[0].start, spans[0].end);
    }
  }
}

=== FILE: flags.dfy ===
/** The language selector: twelve flag images, each tied to a country code
    that the store keeps as the learner's preference. */
module Flags {
  import opened Wrappers
  import opened Vocab
  import opened WordCommands

  datatype FlagOption = FlagOption(id: nat, url: string)

  /** The options in menu order. The German entry is the one image not
      taken from the circle-flags set. */
  const ImageOptions: seq<FlagOption> := [
    FlagOption(0, "https://hatscripts.github.io/circle-flags/flags/dk.svg"),
    FlagOption(1, "https://hatscripts.github.io/circle-flags/flags/nl.svg"),
    FlagOption(2, "https://hatscripts.github.io/circle-flags/flags/fr.svg"),
    FlagOption(3, "https://cdn-icons-png.flaticon.com/128/16022/16022134.png"),
    FlagOption(4, "https://hatscripts.github.io/circle-flags/flags/it.svg"),
    FlagOption(5, "https://hatscripts.github.io/circle-flags/flags/no.svg"),
    FlagOption(6, "https://hatscripts.github.io/circle-flags/flags/pl.svg"),
    FlagOption(7, "https://hatscripts.github.io/circle-flags/flags/pt.svg"),
    FlagOption(8, "https://hatscripts.github.io/circle-flags/flags/ru.svg"),
    FlagOption(9, "https://hatscripts.github.io/circle-flags/flags/es.svg"),
    FlagOption(10, "https://hatscripts.github.io/circle-flags/flags/se.svg"),
    FlagOption(11, "https://hatscripts.github.io/circle-flags/flags/tr.svg")
  ]

  /** The country code of each option id. */
  const Codes: seq<string> := ["dk", "nl", "fr", "de", "it", "no", "pl", "pt", "ru", "es", "se", "tr"]

  /** The image selected before anything is loaded: Turkish. */
  const DefaultImage := "https://hatscripts.github.io/circle-flags/flags/tr.svg"

  lemma TablesWellFormed()
    ensures |ImageOptions| == |Codes| == 12
    ensures forall i :: 0 <= i < |ImageOptions| ==> ImageOptions[i].id == i
    ensures forall i, j :: 0 <= i < j < |Codes| ==> Codes[i] != Codes[j]
    ensures forall i, j :: 0 <= i < j < |ImageOptions| ==> ImageOptions[i].url != ImageOptions[j].url
    ensures DefaultImage == ImageOptions[11].url && Codes[11] == "tr"
  {
  }

  /** `idToCountryCode`. */
  function IdToCountryCode(id: int): (r: Option<string>)
    ensures r.Some? <==> 0 <= id < |Codes|
    ensures r.Some? ==> r.value == Codes[id]
  {
    if 0 <= id < |Codes| then Some(Codes[id]) else None
  }

  /** First position of `x` in `xs`. */
  function PositionOf(xs: seq<string>, x: string): (r: Option<nat>)
    ensures r.Some? ==> r.value < |xs| && xs[r.value] == x
    ensures r.None? <==> x !in xs
  {
    if xs == [] then None
    else if xs[0] == x then Some(0)
    else
      match PositionOf(xs[1..], x)
      case None => None
      case Some(i) => Some(i + 1)
  }

  /** `countryCodeToId`: the inverse table (the codes are distinct, so no
      entry overwrites another). */
  function CountryCodeToId(code: string): (r: Option<nat>)
    ensures r.Some? <==> code in Codes
  {
    PositionOf(Codes, code)
  }

  /** The two tables are inverse to each other. */
  lemma CodeTablesInverse(id: int, code: string)
    ensures IdToCountryCode(id) == Some(code) <==> CountryCodeToId(code) == Some(id)
  {
    TablesWellFormed();
    if CountryCodeToId(code) == Some(id) {
      assert Codes[id] == code;
    }
    if IdToCountryCode(id) == Some(code) {
      var j := CountryCodeToId(code).value;
      assert Codes[j] == code;
      assert j == id;
    }
  }

  /** The option with an id, or with a url. */
  function OptionById(id: int): (r: Option<FlagOption>)
    ensures r.Some? <==> 0 <= id < |ImageOptions|
    ensures r.Some? ==> r.value == ImageOptions[id]
  {
    TablesWellFormed();
    if 0 <= id < |ImageOptions| then Some(ImageOptions[id]) else None
  }

  function OptionByUrl(url: string): (r: Option<FlagOption>)
    ensures r.Some? <==> exists i :: 0 <= i < |ImageOptions| && ImageOptions[i].url == url
    ensures r.Some? ==> r.value in ImageOptions && r.value.url == url
  {
    var urls := seq(|ImageOptions|, i requires 0 <= i < |ImageOptions| => ImageOptions[i].url);
    match PositionOf(urls, url)
    case None =>
      assert forall i :: 0 <= i < |ImageOptions| ==> urls[i] == ImageOptions[i].url;
      None
    case Some(i) => Some(ImageOptions[i])
  }

  /** `fetchSavedCountryCode` given the command's answer: a saved, known
      code selects its image; an absent, empty or unknown code, or a failed
      call, leaves the selection as it is. */
  function LoadSaved(selected: string, res: Result<Option<string>>): (r: string)
    ensures r != selected ==> res.Ok? && res.value.Some? && res.value.value in Codes
    ensures res.Ok? && res.value.Some? && res.value.value in Codes ==>
      OptionByUrl(r).Some? && IdToCountryCode(OptionByUrl(r).value.id) == res.value
  {
    TablesWellFormed();
    match res
    case Err(_) => selected
    case Ok(None) => selected
    case Ok(Some(code)) =>
      if code == "" then selected
      else
        match CountryCodeToId(code)
        case None => selected
        case Some(id) =>
          match OptionById(id)
          case None => selected
          case Some(o) =>
            CodeTablesInverse(id, code);
            assert OptionByUrl(o.url).Some? && OptionByUrl(o.url).value == o;
            o.url
  }

  /** `handleChange`: the selection follows the menu; a url of the menu
      also saves its country code, any other is not saved. */
  function HandleChange(st: Store, url: string): (r: (string, Store))
    ensures r.0 == url
    ensures OptionByUrl(url).None? ==> r.1 == st
    ensures OptionByUrl(url).Some? ==>
      r.1 == SaveSelectedCountryCode(st, Codes[OptionByUrl(url).value.id])
  {
    TablesWellFormed();
    match OptionByUrl(url)
    case None => (url, st)
    case Some(o) => (url, SaveSelectedCountryCode(st, IdToCountryCode(o.id).value))
  }

  /** Loading a code of the table selects the image with the same id. */
  lemma LoadSavedCode(shown: string, id: nat)
    requires id < |Codes|
    ensures LoadSaved(shown, Ok(Some(Codes[id]))) == ImageOptions[id].url
  {
    CodeTablesInverse(id, Codes[id]);
    assert |Codes[id]| == 2;
    assert OptionById(id) == Some(ImageOptions[id]);
  }

  /** A choice from the menu survives a restart: loading the saved code
      from the store selects the same image, whatever was shown before. */
  lemma ChoiceSurvivesRestart(st: Store, url: string, shown: string)
    requires OptionByUrl(url).Some?
    ensures var st' := HandleChange(st, url).1;
      LoadSaved(shown, Ok(GetSelectedCountryCode(st'))) == url
  {
    var o := OptionByUrl(url).value;
    var i :| 0 <= i < |ImageOptions| && ImageOptions[i] == o;
    TablesWellFormed();
    assert o.id == i;
    assert GetSelectedCountryCode(HandleChange(st, url).1) == Some(Codes[i]);
    LoadSavedCode(shown, i);
  }

  /** Without a saved code the Turkish flag stays selected. */
  lemma FreshStartShowsDefault(st: Store)
    requires GetSelectedCountryCode(st).None?
    ensures LoadSaved(DefaultImage, Ok(GetSelectedCountryCode(st))) == DefaultImage
  {
  }
}

=== FILE: reader.dfy ===
/** The reading view: the text rendered as plain and clickable segments, the
    selected word, the meaning draft, and the two actions of the side panel,
    composed with the store they call into. */
module Reader {
  import opened Wrappers
  import opened Chars
  import opened Strings
  import opened Vocab
  import opened Extract
  import opened Commands
  import opened WordCommands
  import opened Segments

  /* ---------------- Rendering ---------------- */

  /** The two link colours: light grey (#dddddd) for seen and known words,
      blue grey (#909FAF) for the others. */
  datatype Colour = Faded | Highlighted

  function ColourOf(s: Status): (c: Colour)
    ensures c == Faded <==> s == Known || s == Seen
  {
    if s == Known || s == Seen then Faded else Highlighted
  }

  /** A rendered segment. A clickable one shows the segment padded with a
      space on each side and selects `word` when clicked. */
  datatype Piece = Plain(segment: string) | Clickable(segment: string, word: string, colour: Colour)

  /** Delete a class of characters from a segment, then trim it. */
  function CleanWith(seg: string, strip: set<char>): (r: string)
    ensures forall c :: c in r ==> c !in strip && c in seg
  {
    Trim(RemoveChars(seg, strip))
  }

  /** The cleaning of a segment with the class the source spells out. */
  function CleanSegmentAsWritten(seg: string): (r: string)
    ensures forall c :: c in r ==> c !in ReaderPunctuationAsWritten && c in seg
  {
    CleanWith(seg, ReaderPunctuationAsWritten)
  }

  /** The cleaning of a segment with the class it evidently means. */
  function CleanSegment(seg: string): (r: string)
    ensures forall c :: c in r ==> c !in ReaderPunctuation && c in seg
  {
    CleanWith(seg, ReaderPunctuation)
  }

  /** Cleaning a cleaned segment changes nothing. */
  lemma CleanSegmentIdempotent(seg: string)
    ensures CleanSegment(CleanSegment(seg)) == CleanSegment(seg)
  {
    var c := CleanSegment(seg);
    RemoveCharsNone(c, ReaderPunctuation);
  }

  /** With the intended class, a run of letters and digits is its own
      cleaned form: the split already keeps punctuation out of it. */
  lemma CleanKeepsWordRun(seg: string)
    requires AllWordChars(seg)
    ensures CleanSegment(seg) == seg
  {
    forall i | 0 <= i < |seg|
      ensures seg[i] !in ReaderPunctuation && !IsSpace(seg[i])
    {
      assert seg[i] in seg;
      LetterOrDigitIsKept(seg[i]);
    }
    RemoveCharsNone(seg, ReaderPunctuation);
  }

  /** The source's class deletes the letters U+00E2 and U+0153, so a word
      holding either is never its own cleaned form. */
  lemma AsWrittenMangles(seg: string)
    requires '\U{E2}' in seg || '\U{153}' in seg
    ensures CleanSegmentAsWritten(seg) != seg
  {
  }

  /** How one segment renders against the vocabulary snapshot, for a given
      cleaning class: blank segments are plain; otherwise the cleaned
      segment is looked up by form and the first row found decides. */
  function ClassifyWith(seg: string, words: seq<Word>, strip: set<char>): (p: Piece)
    ensures p.segment == seg
  {
    if IsBlank(seg) then Plain(seg)
    else
      match WordByForm(words, CleanWith(seg, strip))
      case None => Plain(seg)
      case Some(w) => Clickable(seg, w.word, ColourOf(w.status))
  }

  function ClassifyAsWritten(seg: string, words: seq<Word>): (p: Piece)
    ensures p.segment == seg
  {
    ClassifyWith(seg, words, ReaderPunctuationAsWritten)
  }

  function Classify(seg: string, words: seq<Word>): (p: Piece)
    ensures p.segment == seg
  {
    ClassifyWith(seg, words, ReaderPunctuation)
  }

  /** Forms as the store registers them: non-empty runs of letters. */
  predicate StoreShaped(words: seq<Word>)
  {
    forall k :: 0 <= k < |words| ==> words[k].word != [] && AllLetters(words[k].word)
  }

  /** A run of letters and digits is clickable exactly when some row of the
      snapshot has it as its form; the colour is that of the first such row. */
  lemma WordRunClickable(seg: string, words: seq<Word>)
    requires seg != [] && AllWordChars(seg)
    ensures Classify(seg, words).Clickable? <==> exists k :: 0 <= k < |words| && words[k].word == seg
    ensures Classify(seg, words).Clickable? ==>
      Classify(seg, words).word == seg && Classify(seg, words).colour == ColourOf(WordByForm(words, seg).value.status)
  {
    assert !IsBlank(seg) by {
      assert seg[0] in seg;
      LetterOrDigitIsKept(seg[0]);
    }
    CleanKeepsWordRun(seg);
    var found := WordByForm(words, seg);
    assert Classify(seg, words) == if found.Some? then Clickable(seg, found.value.word, ColourOf(found.value.status)) else Plain(seg);
  }

  /** A string without letters or digits is no store-shaped form. */
  lemma NotAForm(c: string, words: seq<Word>)
    requires StoreShaped(words) && forall x :: x in c ==> !IsLetterOrDigit(x)
    ensures WordByForm(words, c).None?
  {
    forall k | 0 <= k < |words|
      ensures words[k].word != c
    {
      assert words[k].word[0] in words[k].word;
    }
  }

  /** A run of separators is never clickable against store-shaped rows. */
  lemma SeparatorNotClickable(seg: string, words: seq<Word>)
    requires AllSeparators(seg) && StoreShaped(words)
    ensures Classify(seg, words).Plain?
  {
    NotAForm(CleanSegment(seg), words);
  }

  /** The segments of a rendering, in order. */
  function SegmentsOf(ps: seq<Piece>): (r: seq<string>)
    ensures |r| == |ps| && forall k :: 0 <= k < |ps| ==> r[k] == ps[k].segment
  {
    seq(|ps|, k requires 0 <= k < |ps| => ps[k].segment)
  }

  /** Each segment classified, in order. */
  function ClassifyEach(segs: seq<string>, words: seq<Word>, strip: set<char>): (r: seq<Piece>)
    ensures SegmentsOf(r) == segs
    ensures forall k :: 0 <= k < |r| ==> r[k] == ClassifyWith(segs[k], words, strip)
  {
    seq(|segs|, k requires 0 <= k < |segs| => ClassifyWith(segs[k], words, strip))
  }

  lemma ClassifyEachSingle(seg: string, words: seq<Word>, strip: set<char>)
    ensures ClassifyEach([seg], words, strip) == [ClassifyWith(seg, words, strip)]
  {
    assert |ClassifyEach([seg], words, strip)| == 1;
  }

  /** `renderTextWithClickableWords`: the prepared text, split, each segment
      classified. Nothing is lost or reordered: the segments concatenate back
      to the prepared text. */
  function Render(text: string, words: seq<Word>): (r: seq<Piece>)
    ensures SegmentsOf(r) == SplitSegments(Prepare(text))
    ensures Concat(SegmentsOf(r)) == Prepare(text)
    ensures forall k :: 0 <= k < |r| ==> r[k] == Classify(r[k].segment, words)
  {
    ClassifyEach(SplitSegments(Prepare(text)), words, ReaderPunctuation)
  }

  /** The rendering with the class as the source spells it. */
  function RenderAsWritten(text: string, words: seq<Word>): (r: seq<Piece>)
    ensures SegmentsOf(r) == SplitSegments(Prepare(text))
    ensures forall k :: 0 <= k < |r| ==> r[k] == ClassifyAsWritten(r[k].segment, words)
  {
    var segs := SplitSegments(Prepare(text));
    ClassifyEachAsWritten(segs, words);
    ClassifyEach(segs, words, ReaderPunctuationAsWritten)
  }

  /** Classifying each segment with the source's spelling of the class is
      classifying each segment as written. */
  lemma ClassifyEachAsWritten(segs: seq<string>, words: seq<Word>)
    ensures var r := ClassifyEach(segs, words, ReaderPunctuationAsWritten);
      forall k :: 0 <= k < |r| ==> r[k] == ClassifyAsWritten(r[k].segment, words)
  {
    var r := ClassifyEach(segs, words, ReaderPunctuationAsWritten);
    forall k | 0 <= k < |r|
      ensures r[k] == ClassifyAsWritten(r[k].segment, words)
    {
      assert SegmentsOf(r)[k] == segs[k];
    }
  }

  /** Every rendered piece: a non-empty run of letters and digits is
      clickable exactly when the snapshot holds it as a form, and a run of
      separators never is. */
  lemma RenderedPiece(text: string, words: seq<Word>, k: nat)
    requires StoreShaped(words) && k < |Render(text, words)|
    ensures var p := Render(text, words)[k];
      p.Clickable? <==> p.segment != [] && AllWordChars(p.segment) && exists j :: 0 <= j < |words| && words[j].word == p.segment
  {
    var r := Render(text, words);
    var segs := SplitSegments(Prepare(text));
    assert SegmentsOf(r)[k] == segs[k];
    PiecesUniform(segs, k);
    if AllSeparators(segs[k]) && segs[k] != [] {
      SeparatorNotClickable(segs[k], words);
      assert !AllWordChars(segs[k]) by {
        assert segs[k][0] in segs[k];
      }
    } else if segs[k] != [] {
      WordRunClickable(segs[k], words);
    }
  }

  /** A text that is one run of letters and digits is one segment. */
  lemma SingleWordText(s: string)
    requires s != [] && AllWordChars(s)
    ensures Prepare(s) == s
    ensures SplitSegments(Prepare(s)) == [s]
  {
    forall i | 0 <= i < |s|
      ensures s[i] != '-' && !IsSpace(s[i])
    {
      assert s[i] in s;
      LetterOrDigitIsKept(s[i]);
    }
    RemoveCharsNone(s, {'-'});
    assert Concat([s]) == s + Concat([]);
    SplitUnique([s]);
  }

  /** The segment "âge" against a snapshot that holds it. */
  const Accented := "\U{E2}ge"
  const AccentedRow := Word(1, Accented, New, None, None, None)

  lemma AccentedIsWordRun()
    ensures AllWordChars(Accented)
  {
    assert forall c :: c in Accented ==> c == '\U{E2}' || c == 'g' || c == 'e';
  }

  /** The class as written strips the accented letter, and "ge" is not
      in the snapshot. */
  lemma AccentedNotBlank()
    ensures !IsBlank(Accented)
  {
    assert !IsSpace(Accented[0]);
  }

  lemma AccentedCleanedAsWritten()
    ensures CleanSegmentAsWritten(Accented) == "ge"
  {
    AccentedStripped();
    GeIsWordRun();
    TrimWordRun("ge");
  }

  /** The class as written deletes the leading `â` and nothing else. */
  lemma AccentedStripped()
    ensures RemoveChars(Accented, ReaderPunctuationAsWritten) == "ge"
  {
    assert Accented[1..] == "ge" && Accented[0] in ReaderPunctuationAsWritten;
    assert 'g' !in ReaderPunctuationAsWritten && 'e' !in ReaderPunctuationAsWritten;
    RemoveCharsNone("ge", ReaderPunctuationAsWritten);
  }

  /** "ge" is a run of letters. */
  lemma GeIsWordRun()
    ensures forall i :: 0 <= i < |"ge"| ==> IsLetterOrDigit("ge"[i])
  {
  }

  /** A run of letters and digits has nothing to trim. */
  lemma TrimWordRun(s: string)
    requires forall i :: 0 <= i < |s| ==> IsLetterOrDigit(s[i])
    ensures Trim(s) == s
  {
    if s != [] {
      LetterOrDigitIsKept(s[0]);
      LetterOrDigitIsKept(s[|s| - 1]);
    }
  }

  lemma AsWrittenDropsAccented()
    ensures ClassifyAsWritten(Accented, [AccentedRow]) == Plain(Accented)
  {
    AccentedNotBlank();
    AccentedCleanedAsWritten();
    AccentedRowNotGe();
    assert CleanWith(Accented, ReaderPunctuationAsWritten) == "ge";
  }

  lemma AccentedRowNotGe()
    ensures WordByForm([AccentedRow], "ge") == None
  {
    assert [AccentedRow][0].word != "ge";
  }

  /** The intended class finds the word. */
  lemma IntendedFindsAccented()
    ensures Classify(Accented, [AccentedRow]) == Clickable(Accented, Accented, Highlighted)
  {
    AccentedIsWordRun();
    WordRunClickable(Accented, [AccentedRow]);
    assert [AccentedRow][0].word == Accented;
    assert WordByForm([AccentedRow], Accented) == Some(AccentedRow);
  }

  /** A text that is one run of letters and digits renders as one piece. */
  lemma RenderSingleWord(s: string, words: seq<Word>)
    requires s != [] && AllWordChars(s)
    ensures Render(s, words) == [Classify(s, words)]
  {
    SingleWordText(s);
    ClassifyEachSingle(s, words, ReaderPunctuation);
  }

  lemma RenderAsWrittenSingleWord(s: string, words: seq<Word>)
    requires s != [] && AllWordChars(s)
    ensures RenderAsWritten(s, words) == [ClassifyAsWritten(s, words)]
  {
    SingleWordText(s);
    ClassifyEachSingle(s, words, ReaderPunctuationAsWritten);
  }

  lemma RenderAsWrittenAccented()
    ensures RenderAsWritten(Accented, [AccentedRow]) == [Plain(Accented)]
  {
    AccentedIsWordRun();
    RenderAsWrittenSingleWord(Accented, [AccentedRow]);
    AsWrittenDropsAccented();
  }

  lemma RenderAccented()
    ensures Render(Accented, [AccentedRow]) == [Clickable(Accented, Accented, Highlighted)]
  {
    AccentedIsWordRun();
    RenderSingleWord(Accented, [AccentedRow]);
    IntendedFindsAccented();
  }

  /** With the class as written, a word holding U+00E2 is not clickable even
      though the snapshot holds exactly that word; with the intended class
      it is. */
  lemma AsWrittenMissesAccentedWord()
    ensures RenderAsWritten(Accented, [AccentedRow]) == [Plain(Accented)]
    ensures Render(Accented, [AccentedRow]) == [Clickable(Accented, Accented, Highlighted)]
  {
    RenderAsWrittenAccented();
    RenderAccented();
  }

  /* ---------------- The page session ---------------- */

  /** The state of the reading page: the text id of the route, the loaded
      text (none while loading), the vocabulary snapshot of the text, the
      selected word (none before any click, empty after closing the panel)
      and the meaning being typed. */
  datatype ReadPage = ReadPage(routeId: int, text: Option<TextRow>, words: seq<Word>, selected: Option<string>, draft: string)

  function OpenPage(routeId: int): ReadPage
  {
    ReadPage(routeId, None, [], None, "")
  }

  /** The page shows a spinner until a text has arrived. */
  predicate Loading(p: ReadPage)
  {
    p.text.None?
  }

  /** `fetchData`: load the route's text and its words; a failed fetch is
      only logged. */
  function FetchData(p: ReadPage, st: Store): (r: ReadPage)
    ensures p.routeId in st.texts ==>
      r == p.(text := Some(st.texts[p.routeId]), words := GetTextWithWords(st, p.routeId).value.1)
    ensures p.routeId !in st.texts ==> r == p
  {
    match GetTextWithWords(st, p.routeId)
    case Err(_) => p
    case Ok((t, ws)) => p.(text := Some(t), words := ws)
  }

  /** Opening the page of a stored text shows it; of a missing one, the
      spinner stays. */
  lemma OpenShowsText(id: int, st: Store)
    ensures Loading(FetchData(OpenPage(id), st)) <==> id !in st.texts
    ensures id in st.texts ==> FetchData(OpenPage(id), st).text == Some(st.texts[id])
  {
  }

  /** A change of route id re-runs the fetch on the same component state. */
  function Navigate(p: ReadPage, id: int, st: Store): (r: ReadPage)
    ensures r.routeId == id && r.selected == p.selected && r.draft == p.draft
    ensures id in st.texts ==> r.text == Some(st.texts[id]) && r.words == GetTextWithWords(st, id).value.1
    ensures id !in st.texts ==> r == p.(routeId := id)
  {
    FetchData(p.(routeId := id), st)
  }

  /** Moving to a missing text keeps showing the previous text and words. */
  lemma NavigateToMissingKeepsOldText(p: ReadPage, id: int, st: Store)
    requires id !in st.texts
    ensures Navigate(p, id, st).text == p.text && Navigate(p, id, st).words == p.words
  {
  }

  /** `updateWords`: refresh the snapshot only; the text is not reloaded. */
  function UpdateWords(p: ReadPage, st: Store): (r: ReadPage)
    ensures r.text == p.text && r.routeId == p.routeId && r.selected == p.selected && r.draft == p.draft
    ensures p.routeId in st.texts ==> r.words == GetTextWithWords(st, p.routeId).value.1
    ensures p.routeId !in st.texts ==> r.words == p.words
  {
    match GetTextWithWords(st, p.routeId)
    case Err(_) => p
    case Ok((_, ws)) => p.(words := ws)
  }

  /** A refreshed snapshot holds only rows of the store, each the row the
      store finds for its form. */
  lemma RefreshedRowsAreStoreRows(p: ReadPage, st: Store, w: Word)
    requires p.routeId in st.texts && w in UpdateWords(p, st).words
    ensures WordByForm(st.words, w.word) == Some(w)
  {
    var ws := UpdateWords(p, st).words;
    assert multiset(ws)[w] > 0;
  }

  /** Clicking a piece selects the form of the row it was found by; the
      draft is kept. */
  function Click(p: ReadPage, piece: Piece): (r: ReadPage)
    requires piece.Clickable?
    ensures r.selected == Some(piece.word) && r.draft == p.draft && r.words == p.words && r.text == p.text
    ensures r.routeId == p.routeId
  {
    p.(selected := Some(piece.word))
  }

  /** `closeSidePanel`: the selection becomes the empty string. */
  function ClosePanel(p: ReadPage): (r: ReadPage)
    ensures r.selected == Some("") && r.draft == p.draft && r.words == p.words
    ensures r.text == p.text && r.routeId == p.routeId
  {
    p.(selected := Some(""))
  }

  /** `selectedWordData`: the first row of the snapshot with the selected form. */
  function SelectedEntry(p: ReadPage): (r: Option<Word>)
    ensures r.Some? ==> r.value in p.words && Some(r.value.word) == p.selected
    ensures r.Some? ==> exists k :: FirstWithForm(p.words, k, p.selected.value) && p.words[k] == r.value
    ensures r.None? <==> p.selected.None? || forall k :: 0 <= k < |p.words| ==> p.words[k].word != p.selected.value
  {
    match p.selected
    case None => None
    case Some(s) =>
      match IndexOfForm(p.words, s)
      case None => None
      case Some(k) =>
        assert FirstWithForm(p.words, k, s);
        Some(p.words[k])
  }

  /** Clicking a piece selects exactly the row it was coloured by. */
  lemma ClickSelectsEntry(p: ReadPage, seg: string)
    requires Classify(seg, p.words).Clickable?
    ensures var piece := Classify(seg, p.words);
      SelectedEntry(Click(p, piece)).Some?
      && ColourOf(SelectedEntry(Click(p, piece)).value.status) == piece.colour
  {
    var piece := Classify(seg, p.words);
    var w := WordByForm(p.words, CleanSegment(seg)).value;
    assert piece.word == w.word;
    assert WordByForm(p.words, w.word) == Some(w);
  }

  /** `selectedWordData?.meaning || ""`: the meaning shown under the
      selection, or nothing. */
  function ShownMeaning(p: ReadPage): (r: string)
    ensures r != "" ==> SelectedEntry(p).Some? && SelectedEntry(p).value.meaning == Some(r)
    ensures SelectedEntry(p).None? || SelectedEntry(p).value.meaning.None? ==> r == ""
    ensures forall k :: p.selected.Some? && FirstWithForm(p.words, k, p.selected.value) && p.words[k].meaning.Some? ==>
      r == p.words[k].meaning.value
  {
    match SelectedEntry(p)
    case Some(Word(_, _, _, Some(m), _, _)) => m
    case _ => ""
  }

  /* ---------------- Saving a meaning, marking known ---------------- */

  /** Characters the save handler keeps of the selection: letters, marks
      and white space. */
  predicate IsKept(c: char)
  {
    IsLetter(c) || IsMark(c) || IsSpace(c)
  }

  /** `selectedWord.replace(/[^\p{L}\p{M}\s]/gu, "")`. */
  function KeepLetters(s: string): (r: string)
    ensures forall c :: c in r ==> IsKept(c) && c in s
    ensures (forall c :: c in s ==> IsKept(c)) ==> r == s
  {
    if s == [] then []
    else
      assert forall c :: c in s[1..] ==> c in s;
      (if IsKept(s[0]) then [s[0]] else []) + KeepLetters(s[1..])
  }

  /** One character is kept or dropped on its own. */
  lemma KeepLettersChar(c: char)
    ensures KeepLetters([c]) == (if IsKept(c) then [c] else [])
  {
  }

  /** Stripping works piecewise; with `KeepLettersChar` this fixes the
      result of every string. */
  lemma {:induction false} KeepLettersAppend(a: string, b: string)
    ensures KeepLetters(a + b) == KeepLetters(a) + KeepLetters(b)
  {
    if a == [] {
      assert a + b == b;
    } else {
      assert (a + b)[0] == a[0] && (a + b)[1..] == a[1..] + b;
      KeepLettersAppend(a[1..], b);
    }
  }

  /** A selection is falsy when absent or empty. */
  predicate Falsy(selected: Option<string>)
  {
    selected.None? || selected.value == ""
  }

  /** The id both handlers act on: the first row of the snapshot whose form
      is the selection stripped to letters, unless that id is 0. */
  function TargetId(p: ReadPage): (r: Option<int>)
    ensures r.Some? ==> (!Falsy(p.selected) && r.value != 0
      && exists w :: w in p.words && w.id == r.value && w.word == KeepLetters(p.selected.value))
    ensures r.Some? ==> exists k :: FirstWithForm(p.words, k, KeepLetters(p.selected.value)) && p.words[k].id == r.value
    ensures r.Some? <==> (!Falsy(p.selected)
      && exists k :: FirstWithForm(p.words, k, KeepLetters(p.selected.value)) && p.words[k].id != 0)
  {
    if Falsy(p.selected) then None
    else
      var form := KeepLetters(p.selected.value);
      match IndexOfForm(p.words, form)
      case None => None
      case Some(k) =>
        assert FirstWithForm(p.words, k, form);
        FirstWithFormUnique(p.words, form, k);
        if p.words[k].id == 0 then None else Some(p.words[k].id)
  }

  /** `handleSaveMeaning`: with a selection and a non-blank draft, send the
      draft (untrimmed) as the meaning of the selected row; on success
      refresh the snapshot and clear the draft, on failure keep both. */
  function SaveMeaning(p: ReadPage, st: Store, now: int): (r: (ReadPage, Store))
    requires Valid(st)
    ensures Valid(r.1)
    ensures IsBlank(p.draft) || TargetId(p).None? ==> r == (p, st)
    ensures !IsBlank(p.draft) && TargetId(p).Some? ==>
      var res := UpdateWordMeaning(st, TargetId(p).value, p.draft, now);
      && (res.Err? ==> r == (p, st))
      && (res.Ok? ==> r.1 == res.value && r.0 == UpdateWords(p, res.value).(draft := ""))
  {
    if IsBlank(p.draft) then (p, st)
    else
      match TargetId(p)
      case None => (p, st)
      case Some(id) =>
        match UpdateWordMeaning(st, id, p.draft, now)
        case Err(_) => (p, st)
        case Ok(st') => (UpdateWords(p, st').(draft := ""), st')
  }

  /** A draft of nothing but the byte order mark U+FEFF is blank for
      `trim`, so nothing is saved. */
  lemma ByteOrderMarkDraftSkipped(p: ReadPage, st: Store, now: int)
    requires Valid(st) && p.draft == "\U{FEFF}"
    ensures SaveMeaning(p, st, now) == (p, st)
  {
    assert IsBlank(p.draft);
  }

  /** `handleMarkAsKnown`: run the save first (its effects are taken as
      complete before the rest), then mark known the row found in the
      snapshot the handler started with, and refresh. */
  function MarkKnown(p: ReadPage, st: Store, now: int): (r: (ReadPage, Store))
    requires Valid(st)
    ensures Valid(r.1)
    ensures Falsy(p.selected) ==> r == (p, st)
    ensures TargetId(p).None? ==> r == SaveMeaning(p, st, now)
    ensures TargetId(p).Some? ==>
      var (p1, st1) := SaveMeaning(p, st, now);
      var res := MarkWordAsKnown(st1, TargetId(p).value);
      && (res.Err? ==> r == (p1, st1))
      && (res.Ok? ==> r == (UpdateWords(p1, res.value), res.value))
  {
    if Falsy(p.selected) then (p, st)
    else
      var (p1, st1) := SaveMeaning(p, st, now);
      match TargetId(p)
      case None => (p1, st1)
      case Some(id) =>
        match MarkWordAsKnown(st1, id)
        case Err(_) => (p1, st1)
        case Ok(st2) => (UpdateWords(p1, st2), st2)
  }

  /* ---------------- Store-shaped snapshots ---------------- */

  /** Every form of the fresh store is store-shaped: it has none. */
  lemma EmptyStoreShaped()
    ensures StoreShaped(EmptyStore.words)
  {
  }

  /** Rows kept from before, and added rows whose forms the store extracted,
      are store-shaped. */
  lemma GrownRowsShaped(ws: seq<Word>, ws': seq<Word>, forms: seq<string>)
    requires StoreShaped(ws) && |ws| <= |ws'| && ws'[..|ws|] == ws
    requires forall k :: 0 <= k < |forms| ==> forms[k] != [] && AllLetters(forms[k])
    requires forall k :: |ws| <= k < |ws'| ==> ws'[k].word in forms
    ensures StoreShaped(ws')
  {
    forall k | 0 <= k < |ws'|
      ensures ws'[k].word != [] && AllLetters(ws'[k].word)
    {
      if k < |ws| {
        assert ws'[k] == ws'[..|ws|][k];
      } else {
        var j :| 0 <= j < |forms| && forms[j] == ws'[k].word;
      }
    }
  }

  /** `create_text` and `update_text` only add rows for extracted words. */
  lemma SavingTextKeepsShape(st: Store, id: int, title: string, content: string)
    requires Valid(st) && StoreShaped(st.words)
    ensures StoreShaped(CreateText(st, title, content).0.words)
    ensures StoreShaped(UpdateText(st, id, title, content).words)
  {
    GrownRowsShaped(st.words, CreateText(st, title, content).0.words, ExtractWords(content));
    GrownRowsShaped(st.words, UpdateText(st, id, title, content).words, ExtractWords(content));
  }

  /** A single-row update keeps every form. */
  lemma RowUpdateKeepsShape(st: Store, r: Store, id: int)
    requires StoreShaped(st.words) && OnlyRowChanges(st, r, id)
    ensures StoreShaped(r.words)
  {
    assert forall k :: 0 <= k < |r.words| ==> r.words[k].word == st.words[k].word;
  }

  /** Saving a meaning, marking known and reviewing keep the forms. */
  lemma WordUpdatesKeepShape(st: Store, id: int, meaning: string, rating: string, now: int, days: int)
    requires Valid(st) && StoreShaped(st.words)
    ensures UpdateWordMeaning(st, id, meaning, now).Ok? ==> StoreShaped(UpdateWordMeaning(st, id, meaning, now).value.words)
    ensures MarkWordAsKnown(st, id).Ok? ==> StoreShaped(MarkWordAsKnown(st, id).value.words)
    ensures ReviewWord(st, id, rating, now, days).Ok? ==> StoreShaped(ReviewWord(st, id, rating, now, days).value.words)
  {
    if UpdateWordMeaning(st, id, meaning, now).Ok? {
      RowUpdateKeepsShape(st, UpdateWordMeaning(st, id, meaning, now).value, id);
    }
    if MarkWordAsKnown(st, id).Ok? {
      RowUpdateKeepsShape(st, MarkWordAsKnown(st, id).value, id);
    }
    if ReviewWord(st, id, rating, now, days).Ok? {
      RowUpdateKeepsShape(st, ReviewWord(st, id, rating, now, days).value, id);
    }
  }

  /** Deleting a word or a text, and saving the locale, keep the forms. */
  lemma RemovalsKeepShape(st: Store, id: int, textId: int, code: string)
    requires Valid(st) && StoreShaped(st.words)
    ensures DeleteWord(st, id).Ok? ==> StoreShaped(DeleteWord(st, id).value.words)
    ensures StoreShaped(DeleteText(st, textId).words)
    ensures StoreShaped(SaveSelectedCountryCode(st, code).words)
  {
    match IndexOfId(st.words, id)
    case None =>
    case Some(k) =>
      assert DeleteWord(st, id).value.words == Without(st.words, k);
      WithoutKeepsShape(st.words, k);
  }

  /** Removing one row keeps the other forms. */
  lemma WithoutKeepsShape(ws: seq<Word>, k: nat)
    requires k < |ws| && StoreShaped(ws)
    ensures StoreShaped(Without(ws, k))
  {
    var ws' := Without(ws, k);
    assert forall j :: 0 <= j < |ws'| ==> ws'[j] == ws[if j < k then j else j + 1];
  }

  /** The snapshot `get_text_with_words` returns for a store-shaped store is
      store-shaped: it holds only store rows. */
  lemma SnapshotShaped(st: Store, id: int)
    requires StoreShaped(st.words) && id in st.texts
    ensures StoreShaped(GetTextWithWords(st, id).value.1)
  {
    StoreRowsShaped(st.words, GetTextWithWords(st, id).value.1);
  }

  /** Rows each of which the store finds for its form are store-shaped. */
  lemma StoreRowsShaped(ws: seq<Word>, rows: seq<Word>)
    requires StoreShaped(ws)
    requires forall w :: multiset(rows)[w] > 0 ==> RowOfToken(ws, w)
    ensures StoreShaped(rows)
  {
    forall k | 0 <= k < |rows|
      ensures rows[k].word != [] && AllLetters(rows[k].word)
    {
      var w := rows[k];
      assert multiset(rows)[w] > 0;
      var j :| 0 <= j < |ws| && ws[j] == w;
    }
  }

  /** The reader keeps the snapshot and the store store-shaped: loading,
      saving a meaning and marking known. */
  lemma ReaderKeepsShape(p: ReadPage, st: Store, id: int, now: int)
    requires Valid(st) && StoreShaped(st.words) && StoreShaped(p.words)
    ensures StoreShaped(Navigate(p, id, st).words)
    ensures StoreShaped(SaveMeaning(p, st, now).0.words) && StoreShaped(SaveMeaning(p, st, now).1.words)
    ensures StoreShaped(MarkKnown(p, st, now).0.words) && StoreShaped(MarkKnown(p, st, now).1.words)
  {
    if id in st.texts {
      SnapshotShaped(st, id);
    }
    SaveMeaningKeepsShape(p, st, now);
    var (p1, st1) := SaveMeaning(p, st, now);
    if !Falsy(p.selected) && TargetId(p).Some? {
      WordUpdatesKeepShape(st1, TargetId(p).value, "", "", now, 0);
      var res := MarkWordAsKnown(st1, TargetId(p).value);
      if res.Ok? && p1.routeId in res.value.texts {
        SnapshotShaped(res.value, p1.routeId);
      }
    }
  }

  /** Saving a meaning keeps the snapshot and the store store-shaped. */
  lemma SaveMeaningKeepsShape(p: ReadPage, st: Store, now: int)
    requires Valid(st) && StoreShaped(st.words) && StoreShaped(p.words)
    ensures StoreShaped(SaveMeaning(p, st, now).0.words) && StoreShaped(SaveMeaning(p, st, now).1.words)
  {
    if !IsBlank(p.draft) && TargetId(p).Some? {
      WordUpdatesKeepShape(st, TargetId(p).value, p.draft, "", now, 0);
      var res := UpdateWordMeaning(st, TargetId(p).value, p.draft, now);
      if res.Ok? && p.routeId in res.value.texts {
        SnapshotShaped(res.value, p.routeId);
      }
    }
  }

  /* ---------------- What the handlers achieve ---------------- */

  /** Every row of `ws` is the row the store finds for its form. */
  predicate StoreRows(st: Store, ws: seq<Word>)
  {
    forall w :: w in ws ==> WordByForm(st.words, w.word) == Some(w)
  }

  lemma RefreshedAreStoreRows(p: ReadPage, st: Store)
    requires p.routeId in st.texts
    ensures StoreRows(st, UpdateWords(p, st).words)
  {
    forall w | w in UpdateWords(p, st).words
      ensures WordByForm(st.words, w.word) == Some(w)
    {
      RefreshedRowsAreStoreRows(p, st, w);
    }
  }

  /** Against a snapshot of store rows, every clickable piece of a stored
      word has the colour of that word's status in the store. */
  lemma PiecesFollowStore(content: string, st: Store, ws: seq<Word>, k: nat)
    requires Valid(st) && StoreRows(st, ws) && k < |st.words|
    ensures forall piece :: piece in Render(content, ws) && piece.Clickable? && piece.word == st.words[k].word ==>
      piece.colour == ColourOf(st.words[k].status)
  {
    WordByFormAt(st.words, k);
    forall piece | piece in Render(content, ws) && piece.Clickable? && piece.word == st.words[k].word
      ensures piece.colour == ColourOf(st.words[k].status)
    {
      var j :| 0 <= j < |Render(content, ws)| && Render(content, ws)[j] == piece;
      assert piece == Classify(piece.segment, ws);
      var w := WordByForm(ws, CleanSegment(piece.segment)).value;
      assert w in ws && piece.word == w.word;
    }
  }

  /** The row of `id` in a valid store, by index. */
  lemma RowIndex(st: Store, id: int) returns (k: nat)
    requires Valid(st) && WordById(st.words, id).Some?
    ensures k < |st.words| && st.words[k] == WordById(st.words, id).value
  {
    k := IndexOfId(st.words, id).value;
  }

  /** A successful save stores the draft as the meaning, makes the word
      seen, clears the draft, and every occurrence of the word in the
      refreshed rendering turns grey. */
  lemma SaveRecolours(p: ReadPage, st: Store, now: int, content: string)
    requires Valid(st) && p.routeId in st.texts
    requires !IsBlank(p.draft) && TargetId(p).Some? && WordById(st.words, TargetId(p).value).Some?
    ensures var (p', st') := SaveMeaning(p, st, now);
      var u := WordById(st'.words, TargetId(p).value);
      && u.Some? && u.value.meaning == Some(p.draft) && u.value.status == Seen
      && p'.draft == ""
      && forall piece :: piece in Render(content, p'.words) && piece.Clickable? && piece.word == u.value.word ==>
           piece.colour == Faded
  {
    var id := TargetId(p).value;
    var st' := UpdateWordMeaning(st, id, p.draft, now).value;
    var k := RowIndex(st', id);
    RefreshedAreStoreRows(p, st');
    PiecesFollowStore(content, st', UpdateWords(p, st').words, k);
  }

  /** Marking known after typing a meaning: the meaning is kept (the save
      runs first), the word is known, it is never drawn for review, and
      every occurrence turns grey. */
  lemma MarkKnownOutcome(p: ReadPage, st: Store, now: int, later: int, content: string)
    requires Valid(st) && p.routeId in st.texts
    requires TargetId(p).Some? && WordById(st.words, TargetId(p).value).Some?
    ensures var (p', st') := MarkKnown(p, st, now);
      var id := TargetId(p).value;
      var u := WordById(st'.words, id);
      && u.Some? && u.value.status == Known && u.value.nextReview.None?
      && u.value.meaning == (if IsBlank(p.draft) then WordById(st.words, id).value.meaning else Some(p.draft))
      && (GetRandomWord(st', later).Ok? ==> GetRandomWord(st', later).value.id != id)
      && forall piece :: piece in Render(content, p'.words) && piece.Clickable? && piece.word == u.value.word ==>
           piece.colour == Faded
  {
    var id := TargetId(p).value;
    var (p1, st1) := SaveMeaning(p, st, now);
    assert WordById(st1.words, id).Some?;
    assert WordById(st1.words, id).value.meaning == (if IsBlank(p.draft) then WordById(st.words, id).value.meaning else Some(p.draft));
    var st2 := MarkWordAsKnown(st1, id).value;
    KnownNeverDrawn(st1, id, later);
    var k := RowIndex(st2, id);
    RefreshedAreStoreRows(p1, st2);
    PiecesFollowStore(content, st2, UpdateWords(p1, st2).words, k);
  }

  /** Clicking a piece classified against store-shaped rows with positive
      ids aims both handlers at the row that piece was found by. Every
      rendered piece is such a classification of its segment. */
  lemma ClickTargetsClassified(p: ReadPage, seg: string)
    requires StoreShaped(p.words) && forall j :: 0 <= j < |p.words| ==> p.words[j].id >= 1
    requires Classify(seg, p.words).Clickable?
    ensures var piece := Classify(seg, p.words);
      TargetId(Click(p, piece)) == Some(WordByForm(p.words, piece.word).value.id)
  {
    var piece := Classify(seg, p.words);
    var w := WordByForm(p.words, CleanSegment(seg)).value;
    assert piece.word == w.word;
    var j :| 0 <= j < |p.words| && p.words[j] == w;
    LettersAreKept(w.word);
    TargetIdFound(Click(p, piece), w);
  }

  /** The target of a page whose stripped selection finds a row with a
      non-zero id is that row's id. */
  lemma TargetIdFound(p: ReadPage, w: Word)
    requires !Falsy(p.selected) && w.id != 0
    requires WordByForm(p.words, KeepLetters(p.selected.value)) == Some(w)
    ensures TargetId(p) == Some(w.id)
  {
  }

  /** Stripping leaves a store form as it is. */
  lemma LettersAreKept(form: string)
    requires AllLetters(form)
    ensures KeepLetters(form) == form
  {
    forall c | c in form
      ensures IsKept(c)
    {
      var i :| 0 <= i < |form| && form[i] == c;
    }
  }

  /** After the panel is closed no meaning is shown: no row of the store
      has the empty form. */
  lemma ClosedPanelShowsNoMeaning(p: ReadPage)
    requires StoreShaped(p.words)
    ensures SelectedEntry(ClosePanel(p)).None? && ShownMeaning(ClosePanel(p)) == ""
  {
    assert forall k :: 0 <= k < |p.words| ==> p.words[k].word != [];
  }

  /** After the panel is closed nothing can be saved or marked. */
  lemma ClosedPanelActsOnNothing(p: ReadPage, st: Store, now: int)
    requires Valid(st)
    ensures SaveMeaning(ClosePanel(p), st, now) == (ClosePanel(p), st)
    ensures MarkKnown(ClosePanel(p), st, now) == (ClosePanel(p), st)
  {
  }
}

=== FILE: review.dfy ===
/** The review view: the word on the card, whether its meaning is shown,
    and whether any word was left to review, driven by the store's review
    queue. */
module Review {
  import opened Wrappers
  import opened Vocab
  import opened Commands
  import opened WordCommands

  /** The card shown (none until the first fetch answers), whether the
      answer side is open, and whether the queue still had a word. */
  datatype ReviewState = ReviewState(showAnswer: bool, current: Option<Word>, hasRemaining: bool)

  const Initial := ReviewState(false, None, true)

  /** What the view shows: the empty-queue notice, or a card with its front,
      its back when open, and the rating buttons when open. */
  datatype View = Exhausted | Card(front: string, back: Option<string>, ratings: seq<string>)

  /** The four rating buttons, in order, with the value each one sends. */
  const RatingButtons := ["Again", "Hard", "Good", "Easy"]

  function ViewOf(s: ReviewState): (v: View)
    ensures v.Exhausted? <==> !s.hasRemaining
    ensures v.Card? ==> (v.ratings != [] <==> s.showAnswer) && (v.back.Some? <==> s.showAnswer)
    ensures v.Card? ==> v.front == (if s.current.Some? then s.current.value.word else "Loading...")
    ensures v.Card? && s.showAnswer ==> v.ratings == RatingButtons
    ensures v.Card? && s.showAnswer ==>
      v.back == Some(if s.current.Some? && s.current.value.meaning.Some? && s.current.value.meaning.value != ""
                     then s.current.value.meaning.value else "---")
  {
    if !s.hasRemaining then Exhausted
    else
      var front := if s.current.Some? then s.current.value.word else "Loading...";
      var back := if !s.showAnswer then None
        else if s.current.Some? && s.current.value.meaning.Some? && s.current.value.meaning.value != "" then Some(s.current.value.meaning.value)
        else Some("---");
      Card(front, back, if s.showAnswer then RatingButtons else [])
  }

  /** Every button sends a rating the store accepts, one per rating. */
  lemma ButtonsAreRatings()
    ensures forall b :: b in RatingButtons ==> ParseRating(b).Some?
    ensures forall r: Rating :: RatingName(r) in RatingButtons
  {
    forall r: Rating
      ensures RatingName(r) in RatingButtons
    {
      match r
      case Again => assert RatingButtons[0] == "Again";
      case Hard => assert RatingButtons[1] == "Hard";
      case Good => assert RatingButtons[2] == "Good";
      case Easy => assert RatingButtons[3] == "Easy";
    }
  }

  /** `fetchWord2Review` given the command's answer: a word replaces the
      card and closes it; the exact empty-queue error flags the queue as
      empty; any other error is only logged. */
  function ApplyFetch(s: ReviewState, res: Result<Word>): (r: ReviewState)
    ensures res.Ok? ==> r == ReviewState(false, Some(res.value), true)
    ensures res.Err? ==> r.current == s.current && r.showAnswer == s.showAnswer
    ensures res.Err? ==> (r.hasRemaining <==> s.hasRemaining && res.error != NoWordsDue)
  {
    match res
    case Ok(w) => ReviewState(false, Some(w), true)
    case Err(e) => if e == NoWordsDue then s.(hasRemaining := false) else s
  }

  /** `fetchWord2Review`: ask for the most overdue word; show it closed, or
      the empty-queue notice when none is due. */
  function Fetch(s: ReviewState, st: Store, now: int): (r: ReviewState)
    ensures r.hasRemaining ==> r.current.Some? && IsDue(r.current.value, now) && r.current.value in st.words
    ensures r.hasRemaining ==> (!r.showAnswer
      && forall w :: w in st.words && IsDue(w, now) ==> r.current.value.nextReview.value <= w.nextReview.value)
    ensures !r.hasRemaining <==> forall w :: w in st.words ==> !IsDue(w, now)
    ensures !r.hasRemaining ==> r.current == s.current && r.showAnswer == s.showAnswer
  {
    ApplyFetch(s, GetRandomWord(st, now))
  }

  /** Opening the view shows the empty-queue notice exactly when nothing is
      due, and otherwise the most overdue word, closed. */
  lemma MountShowsQueue(st: Store, now: int)
    ensures var s := Fetch(Initial, st, now);
      && (ViewOf(s).Exhausted? <==> forall w :: w in st.words ==> !IsDue(w, now))
      && (ViewOf(s).Card? ==> ViewOf(s).back.None? && ViewOf(s).front == s.current.value.word)
  {
  }

  /** `handleShowAnswer`. */
  function ToggleAnswer(s: ReviewState): (r: ReviewState)
    ensures r.showAnswer != s.showAnswer && r.current == s.current && r.hasRemaining == s.hasRemaining
  {
    s.(showAnswer := !s.showAnswer)
  }

  /** `handleRatingClick`: without a card nothing happens; otherwise the
      card's word is reviewed with the button's value at `now` (the
      scheduler's interval being `days`), and on success the next word is
      fetched at `later`. A failed review is only logged. */
  function RatingClick(s: ReviewState, st: Store, rating: string, now: int, days: int, later: int): (r: (ReviewState, Store))
    requires Valid(st)
    ensures Valid(r.1)
    ensures s.current.None? ==> r == (s, st)
    ensures s.current.Some? ==> var res := ReviewWord(st, s.current.value.id, rating, now, days);
      && (res.Err? ==> r == (s, st))
      && (res.Ok? ==> r.1 == res.value && r.0 == Fetch(s, res.value, later))
  {
    match s.current
    case None => (s, st)
    case Some(w) =>
      match ReviewWord(st, w.id, rating, now, days)
      case Err(_) => (s, st)
      case Ok(st') => (Fetch(s, st', later), st')
  }

  /** Rating a card from the store reschedules that word and the next card
      is a different word, as long as less than a day passes. */
  lemma RatedWordDoesNotReturn(s: ReviewState, st: Store, b: nat, now: int, days: int, later: int)
    requires Valid(st) && s.current.Some? && WordById(st.words, s.current.value.id).Some?
    requires b < |RatingButtons| && later < now + SecondsPerDay
    ensures var (s', st') := RatingClick(s, st, RatingButtons[b], now, days, later);
      && WordById(st'.words, s.current.value.id).Some?
      && Rescheduled(WordById(st.words, s.current.value.id).value, WordById(st'.words, s.current.value.id).value, now)
      && (s'.current.Some? && s'.hasRemaining ==> s'.current.value.id != s.current.value.id)
  {
    ButtonsAreRatings();
    assert RatingButtons[b] in RatingButtons;
    ReviewedNotDueBeforeNextDay(st, s.current.value.id, RatingButtons[b], now, days, later);
  }

  /** Rating the last due word empties the queue view. */
  lemma LastWordEmptiesQueue(s: ReviewState, st: Store, b: nat, now: int, days: int, later: int)
    requires Valid(st) && s.current.Some? && WordById(st.words, s.current.value.id).Some?
    requires b < |RatingButtons| && later < now + SecondsPerDay
    requires forall w :: w in st.words && w.id != s.current.value.id ==> !IsDue(w, later)
    ensures ViewOf(RatingClick(s, st, RatingButtons[b], now, days, later).0).Exhausted?
  {
    var id := s.current.value.id;
    ButtonsAreRatings();
    assert RatingButtons[b] in RatingButtons;
    var st' := ReviewWord(st, id, RatingButtons[b], now, days).value;
    forall w | w in st'.words
      ensures !IsDue(w, later)
    {
      var k :| 0 <= k < |st'.words| && st'.words[k] == w;
      if w.id == id {
        WordByIdAt(st'.words, k);
      } else {
        assert st'.words[k] == st.words[k];
      }
    }
  }
}

=== FILE: segments.dfy ===
/** How the reader cuts a text into segments: hyphens deleted, the ends
    trimmed, then a split on runs of characters that are neither letters nor
    digits, the runs themselves kept as segments (a capturing group). */
module Segments {
  import opened Chars
  import opened Strings

  predicate AllWordChars(s: string)
  {
    forall c :: c in s ==> IsLetterOrDigit(c)
  }

  predicate AllSeparators(s: string)
  {
    forall c :: c in s ==> !IsLetterOrDigit(c)
  }

  /** Length of the longest prefix of letters and digits (`word`) or of
      separators (`!word`). */
  function RunLength(s: string, word: bool): (n: nat)
    ensures n <= |s|
    ensures forall c :: c in s[..n] ==> IsLetterOrDigit(c) == word
    ensures n < |s| ==> IsLetterOrDigit(s[n]) != word
  {
    if s == [] || IsLetterOrDigit(s[0]) != word then 0
    else
      var n := 1 + RunLength(s[1..], word);
      assert s[..n] == [s[0]] + s[1..][..n - 1];
      n
  }

  /** The run of `a` stops where `b` starts when `b` starts with the other class. */
  lemma {:induction false} RunLengthPrefix(a: string, b: string, word: bool)
    requires forall c :: c in a ==> IsLetterOrDigit(c) == word
    requires b == [] || IsLetterOrDigit(b[0]) != word
    ensures RunLength(a + b, word) == |a|
  {
    if a != [] {
      assert (a + b)[1..] == a[1..] + b;
      RunLengthPrefix(a[1..], b, word);
    } else {
      assert a + b == b;
    }
  }

  /** The shape of a split with a capturing group: a run of letters and
      digits, then (if anything follows) a non-empty run of separators and
      again an alternating sequence; only the first and the last run of
      letters and digits may be empty. */
  predicate Alternating(r: seq<string>)
    decreases |r|
  {
    && |r| >= 1
    && AllWordChars(r[0])
    && (|r| == 1 ||
        (&& |r| >= 3
         && r[1] != [] && AllSeparators(r[1])
         && (|r| > 3 ==> r[2] != [])
         && Alternating(r[2..])))
  }

  /** Every segment is uniformly letters and digits or uniformly separators. */
  lemma {:induction false} PiecesUniform(r: seq<string>, k: nat)
    requires Alternating(r) && k < |r|
    ensures AllWordChars(r[k]) || (AllSeparators(r[k]) && r[k] != [])
    decreases |r|
  {
    if k >= 2 {
      PiecesUniform(r[2..], k - 2);
    }
  }

  /** One step of the split: a run of letters and digits and a non-empty
      run of separators in front of the split of the rest. */
  lemma SplitStep(s: string, n: nat, m: nat, rest: seq<string>)
    requires n < m <= |s|
    requires AllWordChars(s[..n]) && AllSeparators(s[n..m])
    requires Alternating(rest) && Concat(rest) == s[m..]
    requires m < |s| ==> rest[0] != []
    ensures Alternating([s[..n], s[n..m]] + rest)
    ensures Concat([s[..n], s[n..m]] + rest) == s
  {
    StepAlternates(s[..n], s[n..m], rest);
    StepConcat(s, n, m, rest);
  }

  /** A run of letters and digits and a non-empty run of separators in front
      of an alternating sequence that starts with a non-empty run, unless it
      is the last, empty one. */
  lemma StepAlternates(a: string, b: string, rest: seq<string>)
    requires AllWordChars(a) && AllSeparators(b) && b != []
    requires Alternating(rest)
    requires |rest| > 1 ==> rest[0] != []
    ensures Alternating([a, b] + rest)
  {
    var r := [a, b] + rest;
    assert r[2..] == rest;
  }

  lemma StepConcat(s: string, n: nat, m: nat, rest: seq<string>)
    requires n < m <= |s|
    requires Concat(rest) == s[m..]
    ensures Concat([s[..n], s[n..m]] + rest) == s
  {
    var r := [s[..n], s[n..m]] + rest;
    assert r[1..][1..] == rest;
    assert s == s[..n] + (s[n..m] + s[m..]);
  }

  /** `s.split(/([^\p{L}\d]+)/u)`. */
  function SplitSegments(s: string): (r: seq<string>)
    ensures Alternating(r)
    ensures Concat(r) == s
    ensures s != [] && IsLetterOrDigit(s[0]) ==> r[0] != []
    decreases |s|
  {
    var n := RunLength(s, true);
    if n == |s| then
      assert Concat([s]) == s + Concat([]);
      [s]
    else
      var m := n + RunLength(s[n..], false);
      var rest := SplitSegments(s[m..]);
      SplitStep(s, n, m, rest);
      [s[..n], s[n..m]] + rest
  }

  /** The concatenation of an alternating sequence, its first two pieces
      apart. */
  lemma FirstRun(r: seq<string>)
    requires Alternating(r) && |r| > 1
    ensures Concat(r) == r[0] + (r[1] + Concat(r[2..]))
    ensures Concat(r[2..]) == [] || IsLetterOrDigit(Concat(r[2..])[0])
  {
    var tail := r[2..];
    assert r[1..][1..] == tail;
    if |r| > 3 {
      assert Concat(tail) == tail[0] + Concat(tail[1..]);
    } else {
      assert tail == [r[2]];
      assert Concat(tail) == r[2] + Concat([]);
    }
  }

  /** The leading runs of the concatenation are the first two pieces. */
  lemma LeadingRuns(r: seq<string>)
    requires Alternating(r) && |r| > 1
    ensures var s := Concat(r); var n := RunLength(s, true);
      && n == |r[0]| && n < |s|
      && n + RunLength(s[n..], false) == |r[0]| + |r[1]|
      && s[..n] == r[0] && s[n..n + |r[1]|] == r[1] && s[n + |r[1]|..] == Concat(r[2..])
  {
    var s := Concat(r);
    var tail := Concat(r[2..]);
    FirstRun(r);
    RunLengthPrefix(r[0], r[1] + tail, true);
    RunLengthPrefix(r[1], tail, false);
    var n := |r[0]|;
    assert s[n..] == r[1] + tail;
  }

  /** More than one piece means the string holds a separator. */
  lemma HasSeparator(q: seq<string>)
    requires Alternating(q) && |q| > 1
    ensures !AllWordChars(Concat(q))
  {
    FirstRun(q);
    var c := q[1][0];
    assert c in q[1];
    assert Concat(q)[|q[0]|] == c;
  }

  /** A string made of one run of letters and digits has no other
      alternating decomposition. */
  lemma SingleRun(r: seq<string>, q: seq<string>)
    requires Alternating(r) && Alternating(q) && Concat(r) == Concat(q) && |r| == 1
    ensures q == r
  {
    assert r[1..] == [];
    assert Concat(r) == r[0] + [] == r[0];
    if |q| > 1 {
      HasSeparator(q);
      assert false;
    } else {
      assert q[1..] == [];
      assert Concat(q) == q[0] + [] == q[0];
      assert q == [q[0]] && r == [r[0]];
    }
  }

  /** Two alternating decompositions of one string with more than one piece
      agree on their first two pieces, and their rests decompose one string. */
  lemma LeadingRunsAgree(r: seq<string>, q: seq<string>)
    requires Alternating(r) && Alternating(q) && Concat(r) == Concat(q) && |r| > 1 && |q| > 1
    ensures r[0] == q[0] && r[1] == q[1]
    ensures Alternating(r[2..]) && Alternating(q[2..]) && Concat(r[2..]) == Concat(q[2..])
  {
    LeadingRuns(r);
    LeadingRuns(q);
    var s := Concat(r);
    var n := |r[0]|;
    assert |q[0]| == n;
    assert |r[1]| == |q[1]|;
  }

  /** Two alternating decompositions of the same string are equal. */
  lemma {:induction false} AlternatingUnique(r: seq<string>, q: seq<string>)
    requires Alternating(r) && Alternating(q) && Concat(r) == Concat(q)
    ensures r == q
    decreases |r|
  {
    if |r| == 1 {
      SingleRun(r, q);
    } else if |q| == 1 {
      SingleRun(q, r);
    } else {
      LeadingRunsAgree(r, q);
      AlternatingUnique(r[2..], q[2..]);
      assert r == [r[0], r[1]] + r[2..];
      assert q == [q[0], q[1]] + q[2..];
    }
  }

  /** The split is the only alternating decomposition of a string: any
      sequence of that shape is the split of its own concatenation. */
  lemma SplitUnique(r: seq<string>)
    requires Alternating(r)
    ensures SplitSegments(Concat(r)) == r
  {
    AlternatingUnique(SplitSegments(Concat(r)), r);
  }

  /** `textblock.replace(/-/g, "").trim()`. */
  function Prepare(text: string): (r: string)
    ensures forall i :: 0 <= i < |r| ==> r[i] != '-' && r[i] in text
    ensures r == [] <==> IsBlank(RemoveChars(text, {'-'}))
    ensures r != [] ==> !IsSpace(r[0]) && !IsSpace(r[|r| - 1])
    ensures exists a :: InBlankFrame(RemoveChars(text, {'-'}), a, r)
  {
    Trim(RemoveChars(text, {'-'}))
  }
}

=== FILE: strings.dfy ===
/** String operations shared by the store and the reader: deleting a class of
    characters (a global regex replace by ""), trimming, splitting on white
    space, and concatenation. */
module Strings {
  import opened Chars

  /** `s` with every character of `drop` deleted, the others kept in order. */
  function RemoveChars(s: string, drop: set<char>): (r: string)
    ensures |r| <= |s|
    ensures forall i :: 0 <= i < |r| ==> r[i] !in drop && r[i] in s
  {
    if s == [] then []
    else (if s[0] in drop then [] else [s[0]]) + RemoveChars(s[1..], drop)
  }

  /** Deleting characters works piecewise. */
  lemma {:induction false} RemoveCharsAppend(a: string, b: string, drop: set<char>)
    ensures RemoveChars(a + b, drop) == RemoveChars(a, drop) + RemoveChars(b, drop)
  {
    if a == [] {
      assert a + b == b;
    } else {
      assert (a + b)[1..] == a[1..] + b;
      RemoveCharsAppend(a[1..], b, drop);
    }
  }

  /** A string with none of the characters is left as it is. */
  lemma {:induction false} RemoveCharsNone(s: string, drop: set<char>)
    requires forall i :: 0 <= i < |s| ==> s[i] !in drop
    ensures RemoveChars(s, drop) == s
  {
    if s != [] {
      RemoveCharsNone(s[1..], drop);
    }
  }

  /** Deleting the same class twice deletes nothing more. */
  lemma RemoveCharsIdempotent(s: string, drop: set<char>)
    ensures RemoveChars(RemoveChars(s, drop), drop) == RemoveChars(s, drop)
  {
    RemoveCharsNone(RemoveChars(s, drop), drop);
  }

  predicate IsBlank(s: string)
  {
    forall i :: 0 <= i < |s| ==> IsSpace(s[i])
  }

  /** A string of Rust white space only. */
  predicate IsRustBlank(s: string)
  {
    forall i :: 0 <= i < |s| ==> IsRustSpace(s[i])
  }

  /** Number of leading white-space characters. */
  function LeadingSpaces(s: string): (n: nat)
    ensures n <= |s|
    ensures forall i :: 0 <= i < n ==> IsSpace(s[i])
    ensures n < |s| ==> !IsSpace(s[n])
  {
    if s == [] || !IsSpace(s[0]) then 0 else 1 + LeadingSpaces(s[1..])
  }

  /** Number of trailing white-space characters. */
  function TrailingSpaces(s: string): (n: nat)
    ensures n <= |s|
    ensures forall i :: |s| - n <= i < |s| ==> IsSpace(s[i])
    ensures n < |s| ==> !IsSpace(s[|s| - 1 - n])
  {
    if s == [] || !IsSpace(s[|s| - 1]) then 0 else 1 + TrailingSpaces(s[..|s| - 1])
  }

  /** `r` is the piece of `s` that starts at `a`, and everything of `s`
      before and after it is white space. */
  predicate InBlankFrame(s: string, a: int, r: string)
  {
    0 <= a && a + |r| <= |s| && r == s[a..a + |r|]
    && IsBlank(s[..a]) && IsBlank(s[a + |r|..])
  }

  /** A piece of `s` with white space on both sides of it is framed by
      white space. */
  lemma FramedBySpace(s: string, a: nat, b: nat)
    requires a + b <= |s|
    requires forall i :: 0 <= i < a ==> IsSpace(s[i])
    requires forall i :: |s| - b <= i < |s| ==> IsSpace(s[i])
    ensures InBlankFrame(s, a, s[a..|s| - b])
  {
    var e := s[|s| - b..];
    forall i | 0 <= i < |e|
      ensures IsSpace(e[i])
    {
      assert e[i] == s[|s| - b + i];
    }
  }

  /** `String.prototype.trim`: `s` without its leading and trailing white
      space; the rest is a contiguous piece of `s`. */
  function Trim(s: string): (r: string)
    ensures |r| <= |s|
    ensures r == [] <==> IsBlank(s)
    ensures r != [] ==> !IsSpace(r[0]) && !IsSpace(r[|r| - 1])
    ensures forall i :: 0 <= i < |r| ==> r[i] in s
    ensures exists a :: InBlankFrame(s, a, r)
    ensures s == [] || (!IsSpace(s[0]) && !IsSpace(s[|s| - 1])) ==> r == s
  {
    var a := LeadingSpaces(s);
    var b := TrailingSpaces(s[a..]);
    assert a < |s| ==> b < |s| - a;
    forall i | |s| - b <= i < |s|
      ensures IsSpace(s[i])
    {
      assert s[i] == s[a..][i - a];
    }
    assert a + b < |s| ==> s[a..|s| - b][|s| - b - a - 1] == s[a..][|s| - a - 1 - b];
    FramedBySpace(s, a, b);
    s[a..|s| - b]
  }

  lemma TrimIdempotent(s: string)
    ensures Trim(Trim(s)) == Trim(s)
  {
  }

  /** Concatenation of a sequence of strings. */
  function Concat(ss: seq<string>): string
  {
    if ss == [] then [] else ss[0] + Concat(ss[1..])
  }

  lemma {:induction false} ConcatAppend(a: seq<string>, b: seq<string>)
    ensures Concat(a + b) == Concat(a) + Concat(b)
  {
    if a == [] {
      assert a + b == b;
    } else {
      assert (a + b)[1..] == a[1..] + b;
      ConcatAppend(a[1..], b);
    }
  }

  /** A token of `split_whitespace`: non-empty, no white space. */
  predicate IsToken(t: string)
  {
    t != [] && forall i :: 0 <= i < |t| ==> !IsRustSpace(t[i])
  }

  /** Length of the longest prefix free of white space. */
  function TokenLength(s: string): (n: nat)
    ensures n <= |s|
    ensures forall i :: 0 <= i < n ==> !IsRustSpace(s[i])
    ensures n < |s| ==> IsRustSpace(s[n])
  {
    if s == [] || IsRustSpace(s[0]) then 0 else 1 + TokenLength(s[1..])
  }

  /** Rust's `str::split_whitespace`: the tokens concatenate to `s` with its
      white space deleted. */
  function SplitWhitespace(s: string): (r: seq<string>)
    ensures forall k :: 0 <= k < |r| ==> IsToken(r[k])
    ensures Concat(r) == RemoveChars(s, RustWhiteSpace)
    decreases |s|
  {
    if s == [] then []
    else if IsRustSpace(s[0]) then
      RustWhiteSpaceIsRustSpace(s[0]);
      SplitWhitespace(s[1..])
    else
      var n := TokenLength(s);
      var rest := SplitWhitespace(s[n..]);
      assert s == s[..n] + s[n..];
      RemoveCharsAppend(s[..n], s[n..], RustWhiteSpace);
      TokenKeptWhole(s[..n]);
      [s[..n]] + rest
  }

  /** Deleting white space from a piece without any leaves it whole. */
  lemma TokenKeptWhole(t: string)
    requires forall i :: 0 <= i < |t| ==> !IsRustSpace(t[i])
    ensures RemoveChars(t, RustWhiteSpace) == t
  {
    forall i | 0 <= i < |t|
      ensures t[i] !in RustWhiteSpace
    {
      RustWhiteSpaceIsRustSpace(t[i]);
    }
    RemoveCharsNone(t, RustWhiteSpace);
  }

  /** `seps[0] + r[0] + seps[1] + ... + r[|r| - 1] + seps[|r|]`. */
  function Interleave(seps: seq<string>, r: seq<string>): string
    requires |seps| == |r| + 1
    decreases |r|
  {
    if r == [] then seps[0] else seps[0] + r[0] + Interleave(seps[1..], r[1..])
  }

  /** `seps` can stand around and between the tokens `r`: each is white
      space, and the ones between two tokens are not empty. */
  predicate Separates(seps: seq<string>, r: seq<string>)
  {
    |seps| == |r| + 1
    && (forall k :: 0 <= k < |r| ==> IsToken(r[k]))
    && (forall k :: 0 <= k < |seps| ==> IsRustBlank(seps[k]))
    && (forall k :: 0 < k < |r| ==> seps[k] != [])
  }

  /** A token followed by nothing or by white space is exactly what
      `TokenLength` measures. */
  lemma {:induction false} TokenLengthAt(t: string, u: string)
    requires forall i :: 0 <= i < |t| ==> !IsRustSpace(t[i])
    requires u == [] || IsRustSpace(u[0])
    ensures TokenLength(t + u) == |t|
  {
    if t != [] {
      assert (t + u)[1..] == t[1..] + u;
      TokenLengthAt(t[1..], u);
    }
  }

  /** What follows a token in an interleaving starts with white space. */
  lemma AfterToken(seps: seq<string>, r: seq<string>)
    requires Separates(seps, r) && r != []
    ensures var u := Interleave(seps[1..], r[1..]); u == [] || IsRustSpace(u[0])
  {
    if |r| > 1 {
      assert seps[1] != [] && IsRustBlank(seps[1]);
      assert Interleave(seps[1..], r[1..]) == seps[1] + r[1] + Interleave(seps[2..], r[2..]);
    }
  }

  /** A leading white-space character of an interleaving belongs to its
      first separator; without it the rest is again an interleaving. */
  lemma DropLeadingSpace(s: string, seps: seq<string>, r: seq<string>)
    requires Separates(seps, r) && Interleave(seps, r) == s && seps[0] != []
    ensures s != [] && IsRustSpace(s[0])
    ensures var seps' := [seps[0][1..]] + seps[1..];
      Separates(seps', r) && Interleave(seps', r) == s[1..]
  {
    var seps' := [seps[0][1..]] + seps[1..];
    assert IsRustBlank(seps[0]);
    if r == [] {
      assert Interleave(seps', r) == s[1..];
    } else {
      assert Interleave(seps', r) == seps[0][1..] + r[0] + Interleave(seps[1..], r[1..]);
      assert s == [seps[0][0]] + (seps[0][1..] + r[0] + Interleave(seps[1..], r[1..]));
    }
    assert Separates(seps', r);
  }

  /** An interleaving that starts with a token starts with exactly the
      prefix `TokenLength` measures; the rest is again an interleaving. */
  lemma DropLeadingToken(s: string, seps: seq<string>, r: seq<string>)
    requires Separates(seps, r) && Interleave(seps, r) == s && seps[0] == [] && r != []
    ensures s != [] && !IsRustSpace(s[0])
    ensures TokenLength(s) == |r[0]| && s[..|r[0]|] == r[0]
    ensures Separates(seps[1..], r[1..]) && Interleave(seps[1..], r[1..]) == s[|r[0]|..]
  {
    var u := Interleave(seps[1..], r[1..]);
    assert s == r[0] + u;
    assert IsToken(r[0]);
    AfterToken(seps, r);
    TokenLengthAt(r[0], u);
    assert s[..|r[0]|] == r[0] && s[|r[0]|..] == u;
    forall k | 0 <= k < |r[1..]|
      ensures IsToken(r[1..][k])
    {
      assert r[1..][k] == r[k + 1];
    }
    forall k | 0 < k < |r[1..]|
      ensures seps[1..][k] != []
    {
      assert seps[1..][k] == seps[k + 1];
    }
  }

  /** `split_whitespace` finds every token of every interleaving of `s`:
      the tokens it returns are the only ones white space separates in `s`. */
  lemma {:induction false} SplitWhitespaceUnique(s: string, seps: seq<string>, r: seq<string>)
    requires Separates(seps, r) && Interleave(seps, r) == s
    ensures SplitWhitespace(s) == r
    decreases |s|
  {
    if seps[0] != [] {
      DropLeadingSpace(s, seps, r);
      SplitWhitespaceUnique(s[1..], [seps[0][1..]] + seps[1..], r);
    } else if r != [] {
      DropLeadingToken(s, seps, r);
      var n := |r[0]|;
      SplitWhitespaceUnique(s[n..], seps[1..], r[1..]);
      assert SplitWhitespace(s) == [s[..n]] + SplitWhitespace(s[n..]);
      assert r == [r[0]] + r[1..];
    }
  }

  /** White space in front of an interleaving joins its first separator. */
  lemma SpaceStep(c: char, t: string, seps: seq<string>, r: seq<string>)
    requires IsRustSpace(c) && Separates(seps, r) && Interleave(seps, r) == t
    ensures var seps' := [[c] + seps[0]] + seps[1..];
      Separates(seps', r) && Interleave(seps', r) == [c] + t
  {
    var seps' := [[c] + seps[0]] + seps[1..];
    assert IsRustBlank(seps[0]);
    assert IsRustBlank(seps'[0]);
    assert forall k :: 0 < k < |seps'| ==> seps'[k] == seps[k];
    if r != [] {
      assert Interleave(seps', r) == [c] + (seps[0] + r[0] + Interleave(seps[1..], r[1..]));
    }
  }

  /** A token in front of an interleaving that starts with white space (or
      is empty) becomes its first token. */
  lemma TokenStep(tok: string, t: string, seps: seq<string>, r: seq<string>)
    requires IsToken(tok) && (t == [] || IsRustSpace(t[0]))
    requires Separates(seps, r) && Interleave(seps, r) == t
    ensures Separates([[]] + seps, [tok] + r) && Interleave([[]] + seps, [tok] + r) == tok + t
  {
    var seps' := [[]] + seps;
    var r' := [tok] + r;
    assert seps'[1..] == seps && r'[1..] == r;
    assert r != [] ==> seps[0] != [];
    forall k | 0 < k < |r'|
      ensures seps'[k] != []
    {
      assert seps'[k] == seps[k - 1];
    }
    forall k | 0 <= k < |r'|
      ensures IsToken(r'[k])
    {
      if k > 0 {
        assert r'[k] == r[k - 1];
      }
    }
  }

  /** Conversely, the tokens `split_whitespace` returns are separated in `s`
      by white space. */
  lemma SplitWhitespaceSeparates(s: string)
    ensures exists seps :: Separates(seps, SplitWhitespace(s)) && Interleave(seps, SplitWhitespace(s)) == s
  {
    var seps := SeparatorsOf(s);
  }

  /** The separators around the tokens of `s`, built from the front. */
  lemma {:induction false} SeparatorsOf(s: string) returns (seps: seq<string>)
    ensures Separates(seps, SplitWhitespace(s)) && Interleave(seps, SplitWhitespace(s)) == s
    decreases |s|
  {
    if s == [] {
      seps := [[]];
      assert Interleave(seps, []) == s;
    } else if IsRustSpace(s[0]) {
      var rest := SeparatorsOf(s[1..]);
      seps := SeparatorsAfterSpace(s, rest);
    } else {
      var tok, t := SplitWhitespaceToken(s);
      var rest := SeparatorsOf(t);
      seps := SeparatorsAfterToken(s, tok, t, rest);
    }
  }

  /** A leading white-space character joins the first separator of the rest. */
  lemma SeparatorsAfterSpace(s: string, rest: seq<string>) returns (seps: seq<string>)
    requires s != [] && IsRustSpace(s[0])
    requires Separates(rest, SplitWhitespace(s[1..])) && Interleave(rest, SplitWhitespace(s[1..])) == s[1..]
    ensures Separates(seps, SplitWhitespace(s)) && Interleave(seps, SplitWhitespace(s)) == s
  {
    assert SplitWhitespace(s) == SplitWhitespace(s[1..]);
    SpaceStep(s[0], s[1..], rest, SplitWhitespace(s[1..]));
    seps := [[s[0]] + rest[0]] + rest[1..];
    assert s == [s[0]] + s[1..];
  }

  /** A leading token comes after an empty first separator. */
  lemma SeparatorsAfterToken(s: string, tok: string, t: string, rest: seq<string>) returns (seps: seq<string>)
    requires s == tok + t && IsToken(tok) && (t == [] || IsRustSpace(t[0]))
    requires SplitWhitespace(s) == [tok] + SplitWhitespace(t)
    requires Separates(rest, SplitWhitespace(t)) && Interleave(rest, SplitWhitespace(t)) == t
    ensures Separates(seps, SplitWhitespace(s)) && Interleave(seps, SplitWhitespace(s)) == s
  {
    TokenStep(tok, t, rest, SplitWhitespace(t));
    seps := [[]] + rest;
  }

  /** A string that starts with a token splits into that token and the
      split of the rest, which is empty or starts with white space. */
  lemma SplitWhitespaceToken(s: string) returns (tok: string, t: string)
    requires s != [] && !IsRustSpace(s[0])
    ensures s == tok + t && |t| < |s|
    ensures SplitWhitespace(s) == [tok] + SplitWhitespace(t)
    ensures IsToken(tok) && (t == [] || IsRustSpace(t[0]))
  {
    var n := TokenLength(s);
    assert n > 0;
    assert forall i :: 0 <= i < n ==> s[..n][i] == s[i];
    tok, t := s[..n], s[n..];
    assert s == tok + t;
  }

  /** The next-line control U+0085 separates tokens for the store. */
  lemma NextLineSplits()
    ensures SplitWhitespace("a\U{85}b") == ["a", "b"]
  {
    var s := "a\U{85}b";
    assert TokenLength(s) == 1 && s[..1] == "a" && s[1..] == "\U{85}b";
    assert "\U{85}b"[1..] == "b";
    assert TokenLength("b") == 1 && "b"[..1] == "b" && "b"[1..] == [];
    assert SplitWhitespace("b") == ["b"];
    assert SplitWhitespace("\U{85}b") == ["b"];
  }

  /** The byte order mark U+FEFF is white space for the reader. */
  lemma ByteOrderMarkTrimmed()
    ensures IsBlank("\U{FEFF}") && Trim("\U{FEFF}") == ""
  {
  }
}

=== FILE: vocab.dfy ===
/** The vocabulary store as an abstract state: the `texts`, `words`,
    `text_words` and `user_preferences` tables of the backend, with the
    constraints the schema and the commands keep. */
module Vocab {
  import opened Wrappers

  /** The `status` column. `Other` stands for NULL or any other string, which
      only an imported database can hold. */
  datatype Status = New | Seen | Known | Other

  /** One row of `words`. Times are seconds of an abstract clock; the float
      columns `stability` and `difficulty` are not modelled. */
  datatype Word = Word(
    id: int,
    word: string,
    status: Status,
    meaning: Option<string>,
    lastReview: Option<int>,
    nextReview: Option<int>)

  datatype TextRow = TextRow(id: int, title: string, content: string)

  /** One row of `text_words`. */
  datatype Link = Link(textId: int, wordId: int)

  /** The whole store. `words` is the table in row order, which is the order a
      full scan returns; the two counters are the AUTOINCREMENT sequences. */
  datatype Store = Store(
    texts: map<int, TextRow>,
    words: seq<Word>,
    links: set<Link>,
    preference: Option<string>,
    nextTextId: int,
    nextWordId: int)

  const EmptyStore: Store := Store(map[], [], {}, None, 1, 1)

  /** `WHERE id = ?`: index of the first row with that id. */
  function IndexOfId(ws: seq<Word>, id: int): (r: Option<nat>)
    ensures r.Some? ==> r.value < |ws| && ws[r.value].id == id
    ensures r.Some? ==> forall k :: 0 <= k < r.value ==> ws[k].id != id
    ensures r.None? <==> forall k :: 0 <= k < |ws| ==> ws[k].id != id
  {
    if ws == [] then None
    else if ws[0].id == id then Some(0)
    else match IndexOfId(ws[1..], id)
      case None => None
      case Some(k) => Some(k + 1)
  }

  /** `WHERE word = ?` with `fetch_optional`, and `words.find(w => w.word === x)`:
      index of the first row with that surface form. */
  function IndexOfForm(ws: seq<Word>, form: string): (r: Option<nat>)
    ensures r.Some? ==> r.value < |ws| && ws[r.value].word == form
    ensures r.Some? ==> forall k :: 0 <= k < r.value ==> ws[k].word != form
    ensures r.None? <==> forall k :: 0 <= k < |ws| ==> ws[k].word != form
  {
    if ws == [] then None
    else if ws[0].word == form then Some(0)
    else match IndexOfForm(ws[1..], form)
      case None => None
      case Some(k) => Some(k + 1)
  }

  /** `k` is the first row of `ws` with surface form `form`. */
  predicate FirstWithForm(ws: seq<Word>, k: int, form: string)
  {
    0 <= k < |ws| && ws[k].word == form && forall j :: 0 <= j < k ==> ws[j].word != form
  }

  function WordById(ws: seq<Word>, id: int): (r: Option<Word>)
    ensures r.Some? ==> r.value in ws && r.value.id == id
    ensures r.None? <==> forall k :: 0 <= k < |ws| ==> ws[k].id != id
  {
    match IndexOfId(ws, id)
    case None => None
    case Some(k) => Some(ws[k])
  }

  function WordByForm(ws: seq<Word>, form: string): (r: Option<Word>)
    ensures r.Some? ==> r.value in ws && r.value.word == form
    ensures r.None? <==> forall k :: 0 <= k < |ws| ==> ws[k].word != form
  {
    match IndexOfForm(ws, form)
    case None => None
    case Some(k) => Some(ws[k])
  }

  predicate UniqueIds(ws: seq<Word>)
  {
    forall i, j :: 0 <= i < j < |ws| ==> ws[i].id != ws[j].id
  }

  predicate UniqueForms(ws: seq<Word>)
  {
    forall i, j :: 0 <= i < j < |ws| ==> ws[i].word != ws[j].word
  }

  /** What every reachable store satisfies: primary keys are unique, positive
      and below their AUTOINCREMENT counter; no two rows share a surface form
      (the registering commands reuse an existing row); every link names a
      word row (deleting a word deletes its links). */
  predicate Valid(st: Store)
  {
    && 1 <= st.nextTextId && 1 <= st.nextWordId
    && (forall t :: t in st.texts ==> st.texts[t].id == t && 1 <= t < st.nextTextId)
    && (forall k :: 0 <= k < |st.words| ==> 1 <= st.words[k].id < st.nextWordId)
    && UniqueIds(st.words)
    && UniqueForms(st.words)
    && (forall l :: l in st.links ==> WordById(st.words, l.wordId).Some?)
  }

  lemma EmptyStoreValid()
    ensures Valid(EmptyStore)
  {
  }

  /** With unique ids, the row with an id is the one at its index. */
  lemma {:induction false} WordByIdAt(ws: seq<Word>, k: nat)
    requires UniqueIds(ws) && k < |ws|
    ensures WordById(ws, ws[k].id) == Some(ws[k])
  {
    var r := IndexOfId(ws, ws[k].id);
    assert r.Some?;
  }

  /** With unique forms, the row with a form is the one at its index. */
  lemma {:induction false} WordByFormAt(ws: seq<Word>, k: nat)
    requires UniqueForms(ws) && k < |ws|
    ensures WordByForm(ws, ws[k].word) == Some(ws[k])
  {
    var r := IndexOfForm(ws, ws[k].word);
    assert r.Some?;
  }

  /** Rows kept as a prefix keep their lookups by id. */
  lemma {:induction false} WordByIdPrefix(ws: seq<Word>, ws': seq<Word>, id: int)
    requires |ws| <= |ws'| && ws'[..|ws|] == ws && UniqueIds(ws')
    requires WordById(ws, id).Some?
    ensures WordById(ws', id) == WordById(ws, id)
  {
    var k := IndexOfId(ws, id).value;
    assert ws'[k] == ws[k];
    WordByIdAt(ws', k);
    WordByIdAt(ws, k);
  }

  /** Rows kept as a prefix keep their lookups by form. */
  lemma {:induction false} WordByFormPrefix(ws: seq<Word>, ws': seq<Word>, form: string)
    requires |ws| <= |ws'| && ws'[..|ws|] == ws && UniqueForms(ws')
    requires WordByForm(ws, form).Some?
    ensures WordByForm(ws', form) == WordByForm(ws, form)
  {
    var k := IndexOfForm(ws, form).value;
    assert ws'[k] == ws[k];
    WordByFormAt(ws', k);
    WordByFormAt(ws, k);
  }

  /** There is only one first row with a form. */
  lemma FirstWithFormUnique(ws: seq<Word>, form: string, k: int)
    requires FirstWithForm(ws, k, form)
    ensures forall j :: FirstWithForm(ws, j, form) ==> j == k
  {
  }
}

=== FILE: word_commands.dfy ===
/** The commands that act on one word row, on the review queue and on the
    saved locale, as pure transitions of the store. */
module WordCommands {
  import opened Wrappers
  import opened Vocab
  import opened Commands

  const SecondsPerDay := 86400
  /** Bounds of a scheduled interval, in days. */
  const MinInterval := 1
  const MaxInterval := 365 * 10

  /** Only the row with `id` may differ, and it keeps its place, id and form. */
  predicate OnlyRowChanges(st: Store, r: Store, id: int)
  {
    && r.texts == st.texts && r.links == st.links && r.preference == st.preference
    && r.nextTextId == st.nextTextId && r.nextWordId == st.nextWordId
    && |r.words| == |st.words|
    && (forall k :: 0 <= k < |st.words| ==> r.words[k].id == st.words[k].id && r.words[k].word == st.words[k].word)
    && (forall k :: 0 <= k < |st.words| && st.words[k].id != id ==> r.words[k] == st.words[k])
  }

  lemma OnlyRowChangesValid(st: Store, r: Store, id: int)
    requires Valid(st) && OnlyRowChanges(st, r, id)
    ensures Valid(r)
  {
    assert forall l :: l in r.links ==> WordById(r.words, l.wordId).Some? by {
      forall l | l in r.links
        ensures WordById(r.words, l.wordId).Some?
      {
        var k := IndexOfId(st.words, l.wordId).value;
        assert r.words[k].id == l.wordId;
      }
    }
  }

  /** Every other row is found as before. */
  lemma {:induction false} OnlyRowChangesLookup(st: Store, r: Store, id: int, other: int)
    requires Valid(st) && OnlyRowChanges(st, r, id) && other != id
    ensures WordById(r.words, other) == WordById(st.words, other)
  {
    OnlyRowChangesValid(st, r, id);
    match IndexOfId(st.words, other)
    case None =>
      assert forall k :: 0 <= k < |r.words| ==> r.words[k].id != other by {
        assert forall k :: 0 <= k < |r.words| ==> r.words[k].id == st.words[k].id;
      }
    case Some(k) =>
      WordByIdAt(st.words, k);
      WordByIdAt(r.words, k);
  }

  /** Overwrite the row at `k` with `w`, which keeps its id and form. */
  function SetRow(st: Store, k: nat, w: Word): (r: Store)
    requires Valid(st) && k < |st.words|
    requires w.id == st.words[k].id && w.word == st.words[k].word
    ensures Valid(r) && OnlyRowChanges(st, r, w.id)
    ensures WordById(r.words, w.id) == Some(w)
  {
    var r := st.(words := st.words[k := w]);
    assert OnlyRowChanges(st, r, w.id);
    OnlyRowChangesValid(st, r, w.id);
    WordByIdAt(r.words, k);
    r
  }

  /* ---------------- Meaning and promotion ---------------- */

  /** `update_word_meaning`: store the meaning, set status `seen` whatever it
      was (even `known`), and make the word due now. */
  function UpdateWordMeaning(st: Store, id: int, meaning: string, now: int): (r: Result<Store>)
    requires Valid(st)
    ensures r.Err? <==> WordById(st.words, id).None?
    ensures r.Err? ==> r.error == WordIdNotFound
    ensures r.Ok? ==> Valid(r.value) && OnlyRowChanges(st, r.value, id)
    ensures r.Ok? ==> var w := WordById(st.words, id).value;
      WordById(r.value.words, id) == Some(w.(meaning := Some(meaning), status := Seen, nextReview := Some(now)))
  {
    match IndexOfId(st.words, id)
    case None => Err(WordIdNotFound)
    case Some(k) =>
      WordByIdAt(st.words, k);
      Ok(SetRow(st, k, st.words[k].(meaning := Some(meaning), status := Seen, nextReview := Some(now))))
  }

  /** `mark_word_as_known`: status `known`, no next review; the meaning and
      the last review stay. */
  function MarkWordAsKnown(st: Store, id: int): (r: Result<Store>)
    requires Valid(st)
    ensures r.Err? <==> WordById(st.words, id).None?
    ensures r.Err? ==> r.error == WordIdNotFound
    ensures r.Ok? ==> Valid(r.value) && OnlyRowChanges(st, r.value, id)
    ensures r.Ok? ==> var w := WordById(st.words, id).value;
      WordById(r.value.words, id) == Some(w.(status := Known, nextReview := None))
  {
    match IndexOfId(st.words, id)
    case None => Err(WordIdNotFound)
    case Some(k) =>
      WordByIdAt(st.words, k);
      Ok(SetRow(st, k, st.words[k].(status := Known, nextReview := None)))
  }

  /** Marking a word known twice is marking it once. */
  lemma MarkWordAsKnownIdempotent(st: Store, id: int)
    requires Valid(st) && MarkWordAsKnown(st, id).Ok?
    ensures MarkWordAsKnown(MarkWordAsKnown(st, id).value, id) == MarkWordAsKnown(st, id)
  {
    var k := IndexOfId(st.words, id).value;
    var st1 := MarkWordAsKnown(st, id).value;
    WordByIdAt(st.words, k);
    assert st1.words[k] == st.words[k].(status := Known, nextReview := None);
    assert IndexOfId(st1.words, id) == Some(k) by {
      WordByIdAt(st1.words, k);
    }
    assert st1.words[k := st1.words[k]] == st1.words;
  }

  /* ---------------- The review queue ---------------- */

  /** Due for review at `now`: status `seen` and a next review not after
      `now` (a missing date is never due, as NULL <= now is not true). */
  predicate IsDue(w: Word, now: int)
  {
    w.status == Seen && w.nextReview.Some? && w.nextReview.value <= now
  }

  /** Among the first `n` rows, the first due row with the earliest next
      review. */
  function EarliestDue(ws: seq<Word>, now: int, n: nat): (r: Option<nat>)
    requires n <= |ws|
    ensures r.Some? ==> r.value < n && IsDue(ws[r.value], now)
    ensures r.Some? ==> forall k :: 0 <= k < n && IsDue(ws[k], now) ==> ws[r.value].nextReview.value <= ws[k].nextReview.value
    ensures r.None? <==> forall k :: 0 <= k < n ==> !IsDue(ws[k], now)
  {
    if n == 0 then None
    else
      var best := EarliestDue(ws, now, n - 1);
      if !IsDue(ws[n - 1], now) then best
      else if best.None? || ws[n - 1].nextReview.value < ws[best.value].nextReview.value then Some(n - 1)
      else best
  }

  /** `get_random_word`: the due word that is most overdue. */
  function GetRandomWord(st: Store, now: int): (r: Result<Word>)
    ensures r.Ok? ==> r.value in st.words && IsDue(r.value, now)
    ensures r.Ok? ==> forall w :: w in st.words && IsDue(w, now) ==> r.value.nextReview.value <= w.nextReview.value
    ensures r.Err? <==> forall w :: w in st.words ==> !IsDue(w, now)
    ensures r.Err? ==> r.error == NoWordsDue
  {
    match EarliestDue(st.words, now, |st.words|)
    case None => Err(NoWordsDue)
    case Some(k) => Ok(st.words[k])
  }

  /** A word whose meaning was just saved is due: the review queue is not
      empty afterwards. */
  lemma SavedMeaningIsDue(st: Store, id: int, meaning: string, now: int)
    requires Valid(st) && UpdateWordMeaning(st, id, meaning, now).Ok?
    ensures GetRandomWord(UpdateWordMeaning(st, id, meaning, now).value, now).Ok?
  {
    var r := UpdateWordMeaning(st, id, meaning, now).value;
    var w := WordById(r.words, id).value;
    assert IsDue(w, now);
  }

  /** A known word is never drawn for review, at any time. */
  lemma KnownNeverDrawn(st: Store, id: int, now: int)
    requires Valid(st) && MarkWordAsKnown(st, id).Ok?
    ensures var r := GetRandomWord(MarkWordAsKnown(st, id).value, now); r.Ok? ==> r.value.id != id
  {
    var st1 := MarkWordAsKnown(st, id).value;
    var r := GetRandomWord(st1, now);
    if r.Ok? {
      var k :| 0 <= k < |st1.words| && st1.words[k] == r.value;
      WordByIdAt(st1.words, k);
    }
  }

  /* ---------------- Reviewing a word ---------------- */

  datatype Rating = Again | Hard | Good | Easy

  function RatingName(r: Rating): string
  {
    match r
    case Again => "Again"
    case Hard => "Hard"
    case Good => "Good"
    case Easy => "Easy"
  }

  /** The rating check of `review_word`: exactly the four names. */
  function ParseRating(s: string): (r: Option<Rating>)
    ensures r.Some? <==> s in {"Again", "Hard", "Good", "Easy"}
    ensures r.Some? ==> RatingName(r.value) == s
  {
    if s == "Again" then Some(Again)
    else if s == "Hard" then Some(Hard)
    else if s == "Good" then Some(Good)
    else if s == "Easy" then Some(Easy)
    else None
  }

  lemma RatingRoundTrip(r: Rating)
    ensures ParseRating(RatingName(r)) == Some(r)
  {
  }

  /** `i64::clamp`. */
  function Clamp(x: int, lo: int, hi: int): (r: int)
    requires lo <= hi
    ensures lo <= r <= hi
    ensures lo <= x <= hi ==> r == x
    ensures x < lo ==> r == lo
    ensures hi < x ==> r == hi
  {
    if x < lo then lo else if hi < x then hi else x
  }

  /** What a successful review does to a row: status, meaning and form stay,
      the last review is `now`, the next is a whole number of days from
      `now`, between one day and ten years. */
  predicate Rescheduled(w: Word, w': Word, now: int)
  {
    && w'.id == w.id && w'.word == w.word && w'.status == w.status && w'.meaning == w.meaning
    && w'.lastReview == Some(now)
    && w'.nextReview.Some?
    && now + MinInterval * SecondsPerDay <= w'.nextReview.value <= now + MaxInterval * SecondsPerDay
    && (w'.nextReview.value - now) % SecondsPerDay == 0
  }

  /** `review_word`. The scheduler's float arithmetic is abstracted into
      `scheduledDays`, the day count before clamping. */
  function ReviewWord(st: Store, id: int, rating: string, now: int, scheduledDays: int): (r: Result<Store>)
    requires Valid(st)
    ensures WordById(st.words, id).None? ==> r == Err(WordNotFound)
    ensures WordById(st.words, id).Some? && ParseRating(rating).None? ==> r == Err(InvalidRating)
    ensures WordById(st.words, id).Some? && ParseRating(rating).Some? ==> r.Ok?
    ensures r.Ok? ==> Valid(r.value) && OnlyRowChanges(st, r.value, id)
    ensures r.Ok? ==> (WordById(r.value.words, id).Some?
      && Rescheduled(WordById(st.words, id).value, WordById(r.value.words, id).value, now))
    ensures r.Ok? && MinInterval <= scheduledDays <= MaxInterval ==>
      WordById(r.value.words, id).value.nextReview == Some(now + scheduledDays * SecondsPerDay)
    ensures r.Ok? ==>
      WordById(r.value.words, id).value.nextReview == Some(now + Clamp(scheduledDays, MinInterval, MaxInterval) * SecondsPerDay)
  {
    match IndexOfId(st.words, id)
    case None => Err(WordNotFound)
    case Some(k) =>
      if ParseRating(rating).None? then Err(InvalidRating)
      else
        WordByIdAt(st.words, k);
        var days := Clamp(scheduledDays, MinInterval, MaxInterval);
        var next := now + days * SecondsPerDay;
        assert (next - now) % SecondsPerDay == 0 by {
          assert next - now == days * SecondsPerDay;
        }
        Ok(SetRow(st, k, st.words[k].(lastReview := Some(now), nextReview := Some(next))))
  }

  /** A reviewed word does not come back before a day has passed. */
  lemma ReviewedNotDueBeforeNextDay(st: Store, id: int, rating: string, now: int, days: int, later: int)
    requires Valid(st) && ReviewWord(st, id, rating, now, days).Ok?
    requires later < now + SecondsPerDay
    ensures var r := GetRandomWord(ReviewWord(st, id, rating, now, days).value, later);
      r.Ok? ==> r.value.id != id
  {
    var st1 := ReviewWord(st, id, rating, now, days).value;
    var r := GetRandomWord(st1, later);
    if r.Ok? {
      var k :| 0 <= k < |st1.words| && st1.words[k] == r.value;
      WordByIdAt(st1.words, k);
    }
  }

  /* ---------------- Deleting a word ---------------- */

  /** The rows without the one at `k`, the others in order. */
  function Without(ws: seq<Word>, k: nat): (r: seq<Word>)
    requires k < |ws|
    ensures |r| == |ws| - 1
    ensures forall j :: 0 <= j < |r| ==> r[j] == (if j < k then ws[j] else ws[j + 1])
  {
    ws[..k] + ws[k + 1..]
  }

  /** Removing a row keeps ids unique and forgets its id. */
  lemma RemoveRowIds(ws: seq<Word>, k: nat)
    requires UniqueIds(ws) && k < |ws|
    ensures UniqueIds(Without(ws, k))
    ensures WordById(Without(ws, k), ws[k].id).None?
  {
  }

  /** Removing a row keeps ids and forms unique and forgets its id. */
  lemma RemoveRowUnique(ws: seq<Word>, k: nat)
    requires UniqueIds(ws) && UniqueForms(ws) && k < |ws|
    ensures UniqueIds(Without(ws, k)) && UniqueForms(Without(ws, k))
    ensures WordById(Without(ws, k), ws[k].id).None?
  {
    RemoveRowIds(ws, k);
  }

  /** The first row carrying an id is the one the lookup finds. */
  lemma FirstWithId(ws: seq<Word>, id: int, j: nat)
    requires j < |ws| && ws[j].id == id
    requires forall i :: 0 <= i < j ==> ws[i].id != id
    ensures IndexOfId(ws, id) == Some(j)
  {
    var x := IndexOfId(ws, id);
    assert x.Some?;
    assert x.value >= j;
  }

  /** Without the row at `k`, the first row with another id moves down by
      one exactly when it came after `k`. */
  lemma {:induction false} RemoveRowIndex(ws: seq<Word>, k: nat, other: int, j: nat)
    requires k < |ws| && ws[k].id != other && IndexOfId(ws, other) == Some(j)
    ensures j != k
    ensures IndexOfId(Without(ws, k), other) == Some(if j < k then j else j - 1)
  {
    var ws' := Without(ws, k);
    if j < k {
      FirstWithId(ws', other, j);
    } else {
      assert forall i :: 0 <= i < j - 1 ==> ws'[i].id != other;
      FirstWithId(ws', other, j - 1);
    }
  }

  /** Without the row at `k`, an id no row had is still not found. */
  lemma RemoveRowAbsent(ws: seq<Word>, k: nat, other: int)
    requires k < |ws| && IndexOfId(ws, other).None?
    ensures IndexOfId(Without(ws, k), other).None?
  {
    var ws' := Without(ws, k);
    assert forall j :: 0 <= j < |ws'| ==> ws'[j].id != other by {
      forall j | 0 <= j < |ws'|
        ensures ws'[j].id != other
      {
        assert ws'[j] == ws[if j < k then j else j + 1];
      }
    }
  }

  /** Without the row at `k`, every other row is found as before. */
  lemma {:induction false} RemoveRowLookup(ws: seq<Word>, k: nat, other: int)
    requires k < |ws| && ws[k].id != other
    ensures WordById(Without(ws, k), other) == WordById(ws, other)
  {
    var ws' := Without(ws, k);
    match IndexOfId(ws, other)
    case None =>
      RemoveRowAbsent(ws, k, other);
    case Some(j) =>
      RemoveRowIndex(ws, k, other, j);
      assert ws'[if j < k then j else j - 1] == ws[j];
  }

  /** The store after removing the row at `k` and every link to it. */
  function RemoveRow(st: Store, k: nat): (r: Store)
    requires k < |st.words|
    ensures r.words == Without(st.words, k)
    ensures forall l :: l in r.links <==> l in st.links && l.wordId != st.words[k].id
    ensures r.texts == st.texts && r.preference == st.preference
    ensures r.nextTextId == st.nextTextId && r.nextWordId == st.nextWordId
  {
    var id := st.words[k].id;
    st.(words := Without(st.words, k), links := set l | l in st.links && l.wordId != id)
  }

  /** Removing a row keeps every other lookup. */
  lemma RemoveRowKeepsOthers(st: Store, k: nat)
    requires Valid(st) && k < |st.words|
    ensures forall other :: other != st.words[k].id ==> WordById(RemoveRow(st, k).words, other) == WordById(st.words, other)
  {
    forall other | other != st.words[k].id
      ensures WordById(RemoveRow(st, k).words, other) == WordById(st.words, other)
    {
      RemoveRowLookup(st.words, k, other);
    }
  }

  /** Removing a row and its links keeps the store valid. */
  lemma RemoveRowValid(st: Store, k: nat)
    requires Valid(st) && k < |st.words|
    ensures Valid(RemoveRow(st, k))
  {
    var r := RemoveRow(st, k);
    RemoveRowUnique(st.words, k);
    RemoveRowKeepsOthers(st, k);
    forall l | l in r.links
      ensures WordById(r.words, l.wordId).Some?
    {
      assert WordById(r.words, l.wordId) == WordById(st.words, l.wordId);
    }
  }

  /** `delete_word`: the row and every link to it go, in one transaction.
      An absent id is an error and, as the transaction is not committed,
      changes nothing. */
  function DeleteWord(st: Store, id: int): (r: Result<Store>)
    requires Valid(st)
    ensures r.Err? <==> WordById(st.words, id).None?
    ensures r.Err? ==> r.error == WordIdNotFound
    ensures r.Ok? ==> Valid(r.value) && WordById(r.value.words, id).None?
    ensures r.Ok? ==> |r.value.words| == |st.words| - 1
    ensures r.Ok? ==> forall other :: other != id ==> WordById(r.value.words, other) == WordById(st.words, other)
    ensures r.Ok? ==> forall l :: l in r.value.links <==> l in st.links && l.wordId != id
    ensures r.Ok? ==> r.value.texts == st.texts && r.value.preference == st.preference
  {
    match IndexOfId(st.words, id)
    case None => Err(WordIdNotFound)
    case Some(k) =>
      RemoveRowUnique(st.words, k);
      RemoveRowKeepsOthers(st, k);
      RemoveRowValid(st, k);
      Ok(RemoveRow(st, k))
  }

  /* ---------------- Counts after a status change ---------------- */

  /** A single-row update changes the status of no other id. */
  lemma OtherStatusesKept(st: Store, r: Store, id: int)
    requires Valid(st) && OnlyRowChanges(st, r, id)
    ensures forall x :: x != id ==> StatusOfId(r.words, x) == StatusOfId(st.words, x)
  {
    forall x | x != id
      ensures StatusOfId(r.words, x) == StatusOfId(st.words, x)
    {
      OnlyRowChangesLookup(st, r, id, x);
    }
  }

  /** Changing the status of one row from `a` to `b` moves each of its links
      from the `a` links to the `b` links of the text. */
  lemma StatusChangeMovesLink(st: Store, st': Store, t: int, id: int, a: Status, b: Status)
    requires st'.links == st.links && a != b
    requires StatusOfId(st.words, id) == Some(a) && StatusOfId(st'.words, id) == Some(b)
    requires forall x :: x != id ==> StatusOfId(st'.words, x) == StatusOfId(st.words, x)
    ensures LinkedWithStatus(st', t, a) == LinkedWithStatus(st, t, a) - {Link(t, id)}
    ensures LinkedWithStatus(st', t, b) == LinkedWithStatus(st, t, b) + (if Link(t, id) in st.links then {Link(t, id)} else {})
    ensures forall c :: c != a && c != b ==> LinkedWithStatus(st', t, c) == LinkedWithStatus(st, t, c)
  {
  }

  /** Moving one link between two status counts of a text. */
  lemma RecountAfterChange(st: Store, st': Store, t: int, id: int, a: Status, b: Status)
    requires st'.links == st.links && a != b && Link(t, id) in st.links
    requires StatusOfId(st.words, id) == Some(a) && StatusOfId(st'.words, id) == Some(b)
    requires forall x :: x != id ==> StatusOfId(st'.words, x) == StatusOfId(st.words, x)
    ensures |LinkedWithStatus(st', t, a)| == |LinkedWithStatus(st, t, a)| - 1
    ensures |LinkedWithStatus(st', t, b)| == |LinkedWithStatus(st, t, b)| + 1
    ensures forall c :: c != a && c != b ==> |LinkedWithStatus(st', t, c)| == |LinkedWithStatus(st, t, c)|
  {
    StatusChangeMovesLink(st, st', t, id, a, b);
    assert Link(t, id) in LinkedWithStatus(st, t, a);
    assert Link(t, id) !in LinkedWithStatus(st, t, b);
  }

  /** The counts are the sizes of the three status link sets. */
  lemma CountsAreSizes(st: Store, t: int)
    ensures GetTextWordCounts(st, t) ==
      Counts(|LinkedWithStatus(st, t, New)|, |LinkedWithStatus(st, t, Seen)|, |LinkedWithStatus(st, t, Known)|)
  {
  }

  /** The counts after one linked row changed from `a` to `b`, with `a` and
      `b` two of the three counted statuses. */
  lemma RecountedCounts(st: Store, st': Store, t: int, id: int, a: Status, b: Status)
    requires st'.links == st.links && a != b && Link(t, id) in st.links
    requires a in {New, Seen, Known} && b in {New, Seen, Known}
    requires StatusOfId(st.words, id) == Some(a) && StatusOfId(st'.words, id) == Some(b)
    requires forall x :: x != id ==> StatusOfId(st'.words, x) == StatusOfId(st.words, x)
    ensures var c := GetTextWordCounts(st, t); var c' := GetTextWordCounts(st', t);
      && c'.newCount == c.newCount + (if b == New then 1 else 0) - (if a == New then 1 else 0)
      && c'.seenCount == c.seenCount + (if b == Seen then 1 else 0) - (if a == Seen then 1 else 0)
      && c'.knownCount == c.knownCount + (if b == Known then 1 else 0) - (if a == Known then 1 else 0)
  {
    RecountAfterChange(st, st', t, id, a, b);
    CountsAreSizes(st, t);
    CountsAreSizes(st', t);
  }

  /** `mark_word_as_known` changes the status of that row only, to known. */
  lemma MarkKnownStatuses(st: Store, id: int)
    requires Valid(st) && WordById(st.words, id).Some?
    ensures var st' := MarkWordAsKnown(st, id).value;
      && st'.links == st.links && StatusOfId(st'.words, id) == Some(Known)
      && forall x :: x != id ==> StatusOfId(st'.words, x) == StatusOfId(st.words, x)
  {
    var st' := MarkWordAsKnown(st, id).value;
    var w := WordById(st.words, id).value;
    assert WordById(st'.words, id) == Some(w.(status := Known, nextReview := None));
    OtherStatusesKept(st, st', id);
  }

  /** `update_word_meaning` changes the status of that row only, to seen. */
  lemma SaveMeaningStatuses(st: Store, id: int, meaning: string, now: int)
    requires Valid(st) && WordById(st.words, id).Some?
    ensures var st' := UpdateWordMeaning(st, id, meaning, now).value;
      && st'.links == st.links && StatusOfId(st'.words, id) == Some(Seen)
      && forall x :: x != id ==> StatusOfId(st'.words, x) == StatusOfId(st.words, x)
  {
    var st' := UpdateWordMeaning(st, id, meaning, now).value;
    var w := WordById(st.words, id).value;
    assert WordById(st'.words, id) == Some(w.(meaning := Some(meaning), status := Seen, nextReview := Some(now)));
    OtherStatusesKept(st, st', id);
  }

  /** `get_text_word_counts` after `mark_word_as_known` of a new word the
      text holds: one fewer new word, one more known word, the same number
      of seen words. */
  lemma MarkKnownRecounts(st: Store, t: int, id: int)
    requires Valid(st) && Link(t, id) in st.links
    requires WordById(st.words, id).Some? && WordById(st.words, id).value.status == New
    ensures var c := GetTextWordCounts(st, t);
      var c' := GetTextWordCounts(MarkWordAsKnown(st, id).value, t);
      c'.newCount + 1 == c.newCount && c'.seenCount == c.seenCount && c'.knownCount == c.knownCount + 1
  {
    var st' := MarkWordAsKnown(st, id).value;
    MarkKnownStatuses(st, id);
    RecountedCounts(st, st', t, id, New, Known);
  }

  /** `get_text_word_counts` after `update_word_meaning` of a new word the
      text holds: one fewer new word, one more seen word, the same number of
      known words. */
  lemma SaveMeaningRecounts(st: Store, t: int, id: int, meaning: string, now: int)
    requires Valid(st) && Link(t, id) in st.links
    requires WordById(st.words, id).Some? && WordById(st.words, id).value.status == New
    ensures var c := GetTextWordCounts(st, t);
      var c' := GetTextWordCounts(UpdateWordMeaning(st, id, meaning, now).value, t);
      c'.newCount + 1 == c.newCount && c'.seenCount == c.seenCount + 1 && c'.knownCount == c.knownCount
  {
    var st' := UpdateWordMeaning(st, id, meaning, now).value;
    SaveMeaningStatuses(st, id, meaning, now);
    RecountedCounts(st, st', t, id, New, Seen);
  }

  /* ---------------- The saved locale ---------------- */

  /** `save_selected_country_code`: the preference table holds this code only. */
  function SaveSelectedCountryCode(st: Store, code: string): (r: Store)
    ensures GetSelectedCountryCode(r) == Some(code)
    ensures r.texts == st.texts && r.words == st.words && r.links == st.links
    ensures r.nextTextId == st.nextTextId && r.nextWordId == st.nextWordId
  {
    st.(preference := Some(code))
  }

  /** `get_selected_country_code`: the saved code, if any. */
  function GetSelectedCountryCode(st: Store): (r: Option<string>)
    ensures r == st.preference
    ensures st == EmptyStore ==> r.None?
  {
    st.preference
  }
}

=== FILE: wrappers.dfy ===
/** Option and Result, as the commands of the store return them: every error
    of the backend is a plain message string. */
module Wrappers {

  datatype Option<+T> = None | Some(value: T)

  datatype Result<+T> = Ok(value: T) | Err(error: string)
}
